=== FILE: README.md ===
# jQuery Form Validation Plugin — a Dafny model

This project models the validation engine of the jQuery Form Validation
Plugin (`dist/validation.js`). A page author marks form elements with CSS
classes: `validate`, the rule markers (`check-email`, `numbers-only`,
`letters-only`, `alphanumeric-only`, `check-length`, `check-match`,
`is-checked`) and the modifiers (`allow-empty`, `allow-spaces`,
`allow-special-characters`). Data attributes give the parameters:
`data-validation-length-min` and `-max`, `data-validation-match` and
`data-error-message`.

A run visits the container's `validate` elements in document order and
decides a verdict for each one until one fails. That failure gets
`error-alert` and its `<id>-message` element is revealed; the elements after
it are not visited. When asked, passing elements get `correct-alert`.

Modules, in dependency order:

- `Wrappers`: `Option`.
- `CharClasses`: the character classes of the plugin's regular expressions.
  This includes the table of 83 Unicode blocks that the email, letters and
  alphanumeric rules accept.
- `Email`: the email pattern as a declarative ghost predicate. Next to it is
  a deterministic recogniser, and the two are proved equal.
- `NumericString`: what `isNaN` accepts for a string. It is modelled as the
  StringNumericLiteral grammar of section 7.1.3.1 of ECMA-262 (6th edition),
  with a recogniser proved equal to the grammar.
- `Rules`: the rule predicates `checkIfNullOrEmpty`, `checkLength`,
  `checkMatch`, `checkIfNumbersOnly`, `checkIfLettersOnly` and
  `checkIfAlphaNumeric`. The email rule lives in `Email`.
- `Fields`: the element record and the verdict of `processElement`.
- `Feedback`: `showError`, `showCorrect`, `reset`, and `processElement` with
  its effects.
- `Container`: `run` as a fold, a closed form of its outcome, and the
  submit, focus and blur handlers.

Modelling decisions:

- Strings are Dafny strings of Unicode scalar values. JavaScript's `length`
  counts UTF-16 code units, so `Rules.Utf16Length` counts a character above
  U+FFFF as two.
- `checkIfLettersOnly` with neither flag evaluates its pattern but returns
  nothing (line 185). The result is `undefined`, so a `letters-only` field
  without a modifier fails every non-blank value. The model follows the
  code: `CheckLettersOnly` returns `None` in that regime.
- The two special-character regimes of `checkIfLettersOnly` (lines 191 and
  194) have no `+` quantifier. They accept exactly one character, and the
  model keeps that.
- The alphanumeric pattern without spaces (line 200) has no `i` flag, while
  the patterns at lines 157, 191, 194 and 199 have it. The model reads every
  class as its listed ranges, without case folding; "## Left out" says which
  characters that misses.
- `showError` builds the message id from `$(el).attr('id')` (line 203), while
  `reset` uses `el.id` (line 101). For an element without an id these are
  `undefined-message` and `-message`. Both are modelled as written, and
  `Feedback.ResetMissesShownMessageWithoutId` states the consequence.
- `checkMatch` with no `data-validation-match` looks up `#undefined`.
- The page is given as parameters:
  - the elements of the container, in document order, as a sequence;
  - the message elements, as a map from id to content and visibility;
  - the values of the other elements that `checkMatch` reads, as a map from
    id to value.

## Model

| member | source | states |
|---|---|---|
| Rules.IsNullOrEmpty | dist/validation.js:150-152 | the three-way test of line 151 reduces to: the value is absent, or no character of it is outside white space (the empty string included) |
| Rules.NullOrEmptyIsBlank | dist/validation.js:150-152 | a value is null-or-empty exactly when it is absent or nothing is left after trimming white space |
| Rules.Utf16Length | dist/validation.js:160 | the JavaScript length lies between the character count and twice it, and equals the character count iff no character is above U+FFFF |
| Rules.Utf16LengthCountsAstral | dist/validation.js:160 | the JavaScript length is exactly the character count plus the number of characters above U+FFFF |
| Rules.CheckLength | dist/validation.js:159-165 | passes iff the UTF-16 length is at least a truthy minimum and at most a truthy maximum; an absent or zero bound is not checked |
| Rules.ZeroBoundIsAbsent | dist/validation.js:162-163 | a bound of 0 behaves exactly like a missing bound, because 0 is falsy |
| Rules.LengthExamples | dist/validation.js:159-165 | "hello" passes 3..10, fails a minimum of 6 and a maximum of 4, and passes with no bounds |
| Rules.LengthCountsCodeUnits | dist/validation.js:160 | an emoji has length 2: it fails a maximum of 1 and passes 2..2 |
| Rules.CheckMatch | dist/validation.js:166-168 | passes iff the target element exists and its value is exactly equal to the field's value |
| Rules.MatchExamples | dist/validation.js:167 | an equal value matches; a value that differs only in case does not; a missing target does not |
| Rules.MatchReadsOnlyTarget | dist/validation.js:167 | the rule reads only the target element: two pages that agree on it give the same answer |
| Rules.MatchWithoutIdUsesUndefined | dist/validation.js:167 | without a match id, the field is compared with the element whose id is "undefined" |
| Rules.CheckNumbersOnly | dist/validation.js:169-182 | for each of the three regimes with a flag: passes iff the value is non-empty and made of digits, plus white space and/or `- / , . ( )` as the flags allow |
| Rules.NumbersOnlyWithoutFlagsIsNumericLiteral | dist/validation.js:170-171 | without flags, passes iff the value is non-empty and derivable from the StringNumericLiteral grammar, that is, iff `isNaN` is false |
| Rules.NumbersBothFlagsIsUnion | dist/validation.js:173-181 | with both flags every character must be in one of the two single-flag classes, and each single-flag regime implies the both-flags one |
| Rules.DigitsPassEveryRegime | dist/validation.js:169-182 | a non-empty string of ASCII digits passes in all four regimes |
| Rules.NumbersOnlyAcceptsPaddedNumber | dist/validation.js:171 | " 42 " passes without flags, because `isNaN` ignores surrounding white space |
| Rules.NumbersOnlyExponent | dist/validation.js:171-174 | "-1.5e3" passes without flags but fails with spaces allowed |
| Rules.NumbersOnlyHex | dist/validation.js:171 | "0x1F" passes without flags |
| Rules.NumbersOnlySpecialCharacters | dist/validation.js:171-177 | "12-34" passes with special characters allowed and fails without flags |
| Rules.NumbersOnlySpaces | dist/validation.js:171-174 | "1 2" passes with spaces allowed and fails without flags |
| Rules.CheckLettersOnly | dist/validation.js:183-196 | no result without flags; with spaces only, passes iff non-empty and made of ASCII letters and white space; with special characters, passes iff the value is one character of the name class, plus white space when spaces are allowed |
| Rules.LettersOnlySpecialIsOneAlphaNumeric | dist/validation.js:190-195 | in the model, with special characters, a value passes iff it is one character that the alphanumeric rule (same spaces flag) accepts, or one of `' - _`; the source differs beyond ASCII with spaces off through the `i` flag of line 194 (see Left out) |
| Rules.LettersOnlyRegimesNest | dist/validation.js:187-195 | the special-only regime's values pass the both-flags regime, and the spaces-only regime's values pass the alphanumeric rule with spaces |
| Rules.LettersOnlyWithoutFlagsFails | dist/validation.js:184-186 | without a modifier, every value fails, letters included |
| Rules.LettersOnlyExamples | dist/validation.js:183-196 | "Mary Ann" passes with spaces; "José" fails there; "é" passes with special characters; "O'Brien" and "Mary Ann" fail there, since only one character is accepted |
| Rules.CheckAlphaNumeric | dist/validation.js:197-201 | passes iff non-empty and every character is an ASCII letter, a digit or in one of the listed Unicode blocks, plus white space when spaces are allowed |
| Rules.AlphaNumericSpacesOnlyAddSpace | dist/validation.js:198-200 | in the model, allowing spaces never rejects a value and changes nothing for a value without white space; the source differs beyond ASCII through the `i` flag of line 199 (see Left out) |
| Rules.AlphaNumericExamples | dist/validation.js:197-201 | "abc123" passes; "abc 123" passes only with spaces; "a-b" fails |
| Email.CheckEmail | dist/validation.js:156-158 | the recogniser: an accepted string contains "@" and has at least six characters |
| Email.CheckEmailIsPattern | dist/validation.js:157 | the recogniser accepts exactly the strings the pattern describes: no leading dot, no "..", local part, "@", a host not starting with a dot, then labels of 2 to 63 TLD letters after a dot |
| Email.EmailAcceptedShape | dist/validation.js:157 | an accepted address has exactly one "@", does not start with ".", has no dot right after "@" and no "..", and ends in a dot followed by 2 to 63 letters without digits |
| Email.EmailAcceptsShortAddress | dist/validation.js:157 | "a@b.co" is accepted |
| Email.EmailRejectsShortTld | dist/validation.js:157 | "a@b.c" is rejected |
| Email.EmailRejectsLeadingDot | dist/validation.js:157 | ".a@b.com" is rejected |
| Email.EmailRejectsDotDot | dist/validation.js:157 | "a..b@c.com" is rejected |
| Email.EmailRejectsDotAfterAt | dist/validation.js:157 | "a@.co" is rejected |
| NumericString.IsNumericString | dist/validation.js:171 | the recogniser for `!isNaN`: trims white space and accepts an empty rest or a StrNumericLiteral; it carries no contract, and its partner is IsNumericStringIsGrammar below |
| NumericString.BlankIsNumeric | dist/validation.js:171 | a string of white space only, the empty string included, is not NaN |
| NumericString.IsNumericStringIsGrammar | dist/validation.js:171 | the recogniser accepts a string iff the StringNumericLiteral grammar derives it, which is when `isNaN` returns false |
| Fields.Chain | dist/validation.js:119-143 | the chain as written: once a check has failed, no later check can make the field pass again |
| Fields.Verdict | dist/validation.js:104-144 | the verdict of `processElement`; its contract-level facts are the three lemmas below (blank values, checkboxes, the conjunction of the declared checks) |
| Fields.ChainIsConjunction | dist/validation.js:119-143 | the short-circuit chain of checks passes iff every declared check in the sequence holds |
| Fields.VerdictIsConjunction | dist/validation.js:119-143 | a non-blank, non-checkbox value passes iff every check its markers declare holds |
| Fields.FailedCheck | dist/validation.js:119-143 | there is a check at which the chain clears `pass` iff the verdict fails, and that check is declared and does not hold |
| Fields.FailedCheckIsFirst | dist/validation.js:119-143 | the check at which the chain clears `pass` comes after only checks that hold, in the order email, numbers, letters, alphanumeric, length, match |
| Fields.NumbersOnlyPrecedesLength | dist/validation.js:122-139 | for a value violating both numbers-only and check-length, the chain never clears `pass` at check-length, and clears it at numbers-only whenever check-email is not declared or holds |
| Fields.NumbersOnlyPrecedesLengthExample | dist/validation.js:122-139 | for "abcdef" with numbers-only, allow-spaces and a maximum length of 3, the chain clears `pass` at numbers-only |
| Fields.MismatchFails | dist/validation.js:140-143 | a non-checkbox, non-blank check-match field whose target is missing or holds a different value fails, whatever else it declares |
| Fields.BlankPassesIffAllowEmpty | dist/validation.js:107-109 | a blank value passes exactly when the element has allow-empty; no rule is consulted |
| Fields.CheckboxVerdict | dist/validation.js:105-118 | a checkbox fails exactly when it has is-checked and is unchecked, whatever its other markers |
| Fields.OtherClassesAreInert | dist/validation.js:109-143 | changing classes other than the rule markers and modifiers does not change the verdict |
| Feedback.ShowError | dist/validation.js:202-208 | the element gains error-alert; an existing message element becomes visible and shows the truthy error message, or keeps its content; no other message element changes |
| Feedback.ShowCorrect | dist/validation.js:209 | the element gains correct-alert and nothing else changes |
| Feedback.Reset | dist/validation.js:98-102 | both alerts are removed and the message element found through `el.id` is hidden; nothing else changes |
| Feedback.ShowErrorIdempotent | dist/validation.js:202-209 | showing an error twice, or marking correct twice, is the same as doing it once |
| Feedback.ResetUndoesShowError | dist/validation.js:98-102 | for an element with an id, reset after showError clears both alerts and hides the revealed message again |
| Feedback.ResetMissesShownMessageWithoutId | dist/validation.js:101 | for an element without an id, reset does not hide the `undefined-message` element that showError revealed |
| Feedback.ProcessElement | dist/validation.js:103-148 | with the flag cleared nothing changes; otherwise the flag becomes the verdict, a failure shows the error, and a pass adds correct-alert only when asked |
| Feedback.ProcessElementKeepsClasses | dist/validation.js:145-146 | processing never removes a class, so a failing element keeps a correct-alert from an earlier run |
| Feedback.FeedbackIsInert | dist/validation.js:98-102 | adding or removing the feedback classes does not change the element's verdict |
| Container.RunFrom | dist/validation.js:78-81 | the `each` loop as a fold: it keeps the number of elements and the set of message elements, and never sets the flag again once it is cleared |
| Container.Expected | dist/validation.js:75-82 | the closed form of a run: it passes iff every selected element passes, and keeps the elements' count and the message ids |
| Container.Run | dist/validation.js:75-82 | the run computes the closed form; it passes iff every selected element passes |
| Container.RunFromIsExpected | dist/validation.js:78-81 | the element-by-element fold equals the closed form: elements before the first failure are processed, the first failure shows its error, later elements are untouched |
| Container.RunStopsAtFirstFailure | dist/validation.js:79 | given the first failing element: the run fails, that element gets error-alert, its message is the only one shown, and every later element is unchanged |
| Container.RunFeedback | dist/validation.js:78-81 | each element only gains classes; unselected elements are unchanged; elements before the first failure get correct-alert exactly when asked or already present; only the first failure gains error-alert |
| Container.RunKeepsFirstFailing | dist/validation.js:75-82 | the run does not change which element fails first |
| Container.RunIdempotent | dist/validation.js:75-82 | running twice gives the same page and verdict as running once |
| Container.OnSubmit | dist/validation.js:51-54 | submission is prevented exactly when some selected element fails |
| Container.OnFocus | dist/validation.js:93-95 | for a `.validate` element: it loses both alerts and keeps everything else, the message element named after `el.id` is hidden, and no other element changes |
| Container.OnBlur | dist/validation.js:85-88 | for a `.validate` element: reset, then a run; the run passes exactly when a run of the page before the reset would |
| Container.ResetKeepsRun | dist/validation.js:85-88 | resetting an element before the run changes neither the verdict nor which element fails first |

## Left out

- `bind` and `bindOnReturn` (lines 34-41, 65-74): they call a user callback after a run. The callback is outside the engine. The run they start is `Container.Run`.
- `bindReset` keeps a one-shot guard, `resetCalled` (lines 90-97). This is event registration, so only the handler is modelled (`Container.OnFocus`).
- Event registration itself is not modelled. This covers jQuery `.on`, the Return-key filter, and which elements receive which event.
- The initial value of `passed` before any run (line 22) is not modelled. Every run sets the flag first.
- jQuery selectors are not modelled. The container's elements are given as a sequence in document order. Duplicate ids and elements outside the container are not modelled.
- `Rules.CheckLength`: bounds are modelled as integers, present or absent. jQuery `.data()` converts a string to a number only when the number prints back as the same string. A non-canonical numeral such as "00", "0.0" or "05" therefore stays a string. Such a string is truthy, and `new Number` makes it a number. So `data-validation-length-max="00"` fails every non-empty value, while the model's `Some(0)` constrains nothing. Non-numeric bounds (NaN) and fractional bounds are not modelled either.
- `Feedback.ShowError`: the error message is a string. jQuery `.data()` would turn a message such as "0" or "true" into a number or boolean first, so its truthiness and HTML text can differ.
- Input values holding a lone UTF-16 surrogate are not modelled: strings are sequences of Unicode scalar values, so such a value cannot be expressed. In the source its `length` counts the surrogate as one unit and every character class rejects it.
- The `i` flag on the patterns of lines 157, 191, 194 and 199 is not modelled beyond ASCII. Without the `u` flag, matching compares upper-case forms, so the source also accepts some characters outside the block table whose upper-case form, or a table character's upper-case form, equals theirs. Examples are U+AB70 (upper case U+13A0), U+1C80 (upper case U+0412) and U+1C90 (the upper case of U+10D0). `Email.CheckEmail`, `Rules.CheckLettersOnly` and `Rules.CheckAlphaNumeric` with spaces reject these characters. Because line 200 has no `i` flag, the source's alphanumeric rule accepts U+AB70 with allow-spaces and rejects it without, so `Rules.AlphaNumericSpacesOnlyAddSpace` holds of the model only. For the same reason the source's letters-only rule with special characters (line 194, `i` flag) accepts U+AB70 while its alphanumeric rule without spaces rejects it, so `Rules.LettersOnlySpecialIsOneAlphaNumeric` with spaces off holds of the model only.
- `Rules.CheckNumbersOnly`: `isNaN` is modelled through the StringNumericLiteral grammar, and no number is computed. Floating point is not modelled, and a literal that would round to Infinity is still a number, as in JavaScript.
- `.val()` of a multi-select returns an array. The model treats every value as a string or as absent.
- The HTML content of a message element is kept as a string. Markup is not interpreted.
- The demonstration page and its script are not part of this model.

=== FILE: char_classes.dfy ===
/** Character classes of the validation rules' regular expressions.

    Every class of the engine's regular expressions is built from the same
    three pieces: ASCII letters, ASCII digits, and one fixed list of 83
    Unicode blocks (the "range letters"), plus a few punctuation characters
    and, for some classes, the ECMAScript `\s` set.  The block list is kept
    here once, as a table of closed code-unit intervals.

    Dafny `char` is a Unicode scalar value, while the engine's regular
    expressions run without the `u` flag, on UTF-16 code units.  Every block
    lies in the Basic Multilingual Plane, outside the surrogate range
    D800-DFFF, so a character is in a class exactly when its single code unit is; characters
    outside the BMP (two surrogate code units) are in no class.
 */
module CharClasses {

  /** A closed interval [lo, hi] of UTF-16 code units. */
  datatype Block = Block(lo: int, hi: int)

  /** The blocks of the table that lie between ASCII and General Punctuation. */
  type LowBlock = b: Block | 0x80 <= b.lo <= b.hi < 0x2000 witness Block(0x80, 0x80)

  /** The blocks of the table that lie above General Punctuation, Superscripts and
      Subscripts, and Currency Symbols (U+2000 to U+20CF), in the BMP. */
  type HighBlock = b: Block | 0x20D0 <= b.lo <= b.hi <= 0xFFFF witness Block(0x20D0, 0x20D0)

  /** Latin-1 Supplement through Lao (U+0080 to U+0EFF). */
  const LowBlocksA: seq<LowBlock> := [
      Block(0x0080, 0x00FF), Block(0x0100, 0x017F), Block(0x0180, 0x024F), Block(0x0250, 0x02AF),
      Block(0x0300, 0x036F), Block(0x0370, 0x03FF), Block(0x0400, 0x04FF), Block(0x0500, 0x052F),
      Block(0x0530, 0x058F), Block(0x0590, 0x05FF), Block(0x0600, 0x06FF), Block(0x0700, 0x074F),
      Block(0x0750, 0x077F), Block(0x0780, 0x07BF), Block(0x07C0, 0x07FF), Block(0x0900, 0x097F),
      Block(0x0980, 0x09FF), Block(0x0A00, 0x0A7F), Block(0x0A80, 0x0AFF), Block(0x0B00, 0x0B7F),
      Block(0x0B80, 0x0BFF), Block(0x0C00, 0x0C7F), Block(0x0C80, 0x0CFF), Block(0x0D00, 0x0D7F),
      Block(0x0D80, 0x0DFF), Block(0x0E00, 0x0E7F), Block(0x0E80, 0x0EFF)
    ]

  /** Tibetan through Greek Extended (U+0F00 to U+1FFF). */
  const LowBlocksB: seq<LowBlock> := [
      Block(0x0F00, 0x0FFF), Block(0x1000, 0x109F), Block(0x10A0, 0x10FF), Block(0x1100, 0x11FF),
      Block(0x1200, 0x137F), Block(0x1380, 0x139F), Block(0x13A0, 0x13FF), Block(0x1400, 0x167F),
      Block(0x1680, 0x169F), Block(0x16A0, 0x16FF), Block(0x1700, 0x171F), Block(0x1720, 0x173F),
      Block(0x1740, 0x175F), Block(0x1760, 0x177F), Block(0x1780, 0x17FF), Block(0x1800, 0x18AF),
      Block(0x1900, 0x194F), Block(0x1950, 0x197F), Block(0x1980, 0x19DF), Block(0x19E0, 0x19FF),
      Block(0x1A00, 0x1A1F), Block(0x1B00, 0x1B7F), Block(0x1D00, 0x1D7F), Block(0x1D80, 0x1DBF),
      Block(0x1DC0, 0x1DFF), Block(0x1E00, 0x1EFF), Block(0x1F00, 0x1FFF)
    ]

  const LowBlocks: seq<LowBlock> := LowBlocksA + LowBlocksB

  const HighBlocks: seq<HighBlock> := [
      Block(0x20D0, 0x20FF), Block(0x2100, 0x214F), Block(0x2C00, 0x2C5F), Block(0x2C60, 0x2C7F),
      Block(0x2C80, 0x2CFF), Block(0x2D00, 0x2D2F), Block(0x2D30, 0x2D7F), Block(0x2D80, 0x2DDF),
      Block(0x2F00, 0x2FDF), Block(0x2FF0, 0x2FFF), Block(0x3040, 0x309F), Block(0x30A0, 0x30FF),
      Block(0x3100, 0x312F), Block(0x3130, 0x318F), Block(0x3190, 0x319F), Block(0x31C0, 0x31EF),
      Block(0x31F0, 0x31FF), Block(0x3200, 0x32FF), Block(0x3300, 0x33FF), Block(0x3400, 0x4DBF),
      Block(0x4DC0, 0x4DFF), Block(0x4E00, 0x9FFF), Block(0xA000, 0xA48F), Block(0xA490, 0xA4CF),
      Block(0xA700, 0xA71F), Block(0xA800, 0xA82F), Block(0xA840, 0xA87F), Block(0xAC00, 0xD7AF),
      Block(0xF900, 0xFAFF)
    ]

  /** The 83 Unicode blocks listed, in this order, in every letter class of
      dist/validation.js (lines 157, 191, 194, 199 and 200).  No block covers
      ASCII or U+2000 to U+20CF, which holds the line and paragraph separators. */
  const UnicodeBlocks: seq<Block> := LowBlocks + HighBlocks

  predicate InBlocks(c: char)
  {
    exists i :: 0 <= i < |UnicodeBlocks| && UnicodeBlocks[i].lo <= c as int <= UnicodeBlocks[i].hi
  }

  predicate IsAsciiLetter(c: char)
  {
    ('a' <= c <= 'z') || ('A' <= c <= 'Z')
  }

  predicate IsDigit(c: char)
  {
    '0' <= c <= '9'
  }

  /** The ECMAScript `\s` set: WhiteSpace (TAB, VT, FF, SP, NBSP, ZWNBSP and the
      Zs space separators) together with LineTerminator (LF, CR, LS, PS).  The same
      set is StrWhiteSpaceChar in the grammar of numeric strings. */
  predicate IsSpace(c: char)
  {
    || c == '\t' || c == '\n' || c == '\U{000B}' || c == '\U{000C}' || c == '\r' || c == ' '
    || c == '\U{00A0}' || c == '\U{1680}' || ('\U{2000}' <= c <= '\U{200A}')
    || c == '\U{2028}' || c == '\U{2029}' || c == '\U{202F}' || c == '\U{205F}'
    || c == '\U{3000}' || c == '\U{FEFF}'
  }

  /** An ASCII letter or a character of the listed Unicode blocks: a "range letter", the class of an email's top-level label. */
  predicate IsRangeLetter(c: char)
  {
    IsAsciiLetter(c) || InBlocks(c)
  }

  /** A range letter or an ASCII digit. */
  predicate IsRangeAlnum(c: char)
  {
    IsRangeLetter(c) || IsDigit(c)
  }

  /** The bracketed character classes that occur in the rules' regular expressions.
      `AsciiLetters` only records the pattern of line 185, whose test result is
      discarded; no rule of the model uses it. */
  datatype CharClass =
    | AsciiLetters          // ASCII letters                              dist/validation.js:185
    | AsciiLettersSpaces    // ASCII letters and white space              dist/validation.js:188
    | NameChars             // letters, digits, apostrophe, hyphen, low line   dist/validation.js:191
    | NameCharsSpaces       // the same and white space                   dist/validation.js:194
    | Alnum                 // letters and digits                         dist/validation.js:200
    | AlnumSpaces           // letters, digits and white space            dist/validation.js:199
    | DigitsSpaces          // ASCII digits and white space               dist/validation.js:174
    | DigitsSpecial         // ASCII digits and number punctuation        dist/validation.js:177
    | DigitsSpacesSpecial   // digits, white space and number punctuation dist/validation.js:180
    | EmailLocal            // letters, digits and . + _ { | } ~ -        dist/validation.js:157
    | EmailDomain           // letters, digits, hyphen and dot            dist/validation.js:157
    | EmailTld              // letters only                               dist/validation.js:157

  predicate IsNumberPunctuation(c: char)
  {
    c == '-' || c == '/' || c == ',' || c == '.' || c == '(' || c == ')'
  }

  predicate InClass(k: CharClass, c: char)
  {
    match k
    case AsciiLetters => IsAsciiLetter(c)
    case AsciiLettersSpaces => IsAsciiLetter(c) || IsSpace(c)
    case NameChars => IsRangeAlnum(c) || c == '\'' || c == '-' || c == '_'
    case NameCharsSpaces => IsSpace(c) || IsRangeAlnum(c) || c == '\'' || c == '-' || c == '_'
    case Alnum => IsRangeAlnum(c)
    case AlnumSpaces => IsSpace(c) || IsRangeAlnum(c)
    case DigitsSpaces => IsDigit(c) || IsSpace(c)
    case DigitsSpecial => IsDigit(c) || IsNumberPunctuation(c)
    case DigitsSpacesSpecial => IsDigit(c) || IsSpace(c) || IsNumberPunctuation(c)
    case EmailLocal =>
      IsRangeAlnum(c) || c == '.' || c == '+' || c == '_' || c == '{' || c == '|' || c == '}' || c == '~' || c == '-'
    case EmailDomain => IsRangeAlnum(c) || c == '-' || c == '.'
    case EmailTld => IsRangeLetter(c)
  }

  /** Every character of `s` is in class `k` (`s` may be empty). */
  predicate AllIn(k: CharClass, s: string)
  {
    forall i :: 0 <= i < |s| ==> InClass(k, s[i])
  }

  /** The anchored pattern `^[k]+$`. */
  predicate MatchesPlus(k: CharClass, s: string)
  {
    |s| > 0 && AllIn(k, s)
  }

  /** The anchored pattern `^[k]$`: exactly one character, in class `k`. */
  predicate MatchesOne(k: CharClass, s: string)
  {
    |s| == 1 && InClass(k, s[0])
  }

  /** Every character of `s` is in `\s` (true of the empty string). */
  predicate AllSpace(s: string)
  {
    forall i :: 0 <= i < |s| ==> IsSpace(s[i])
  }

  /** LineTerminator: the characters that `.` does not match in a regular expression. */
  predicate IsLineTerminator(c: char)
  {
    c == '\n' || c == '\r' || c == '\U{2028}' || c == '\U{2029}'
  }

  /** The blocks hold neither ASCII nor the range U+2000 to U+20CF. */
  lemma BlocksBounds(c: char)
    requires InBlocks(c)
    ensures 0x80 <= c as int <= 0xFFFF && !(0x2000 <= c as int < 0x20D0)
  {
    var i :| 0 <= i < |UnicodeBlocks| && UnicodeBlocks[i].lo <= c as int <= UnicodeBlocks[i].hi;
    if i < |LowBlocks| {
      assert UnicodeBlocks[i] == LowBlocks[i];
    } else {
      assert UnicodeBlocks[i] == HighBlocks[i - |LowBlocks|];
    }
  }

  /** No class of the email pattern holds a line terminator. */
  lemma EmailClassesExcludeLineTerminators(k: CharClass, c: char)
    requires k == EmailLocal || k == EmailDomain || k == EmailTld
    requires InClass(k, c)
    ensures !IsLineTerminator(c)
  {
    if InBlocks(c) {
      BlocksBounds(c);
    }
  }
}

=== FILE: container.dfy ===
/** A validation run over a container (dist/validation.js, lines 75 to 82)
    and the handlers that start one (lines 48 to 55, 83 to 97).

    A run visits the container's `.validate` elements in document order,
    threading the aggregate flag `passed` and the message elements.  The flag
    starts set; the first failing element clears it, and every element after
    that is skipped.  `Expected` states the outcome of a run in closed form,
    and `RunFromIsExpected` proves the fold computes it.
 */
module Container {
  import opened Wrappers
  import opened Rules
  import opened Fields
  import opened Feedback

  /** The container's elements in document order, and the page's message elements. */
  datatype Page = Page(elements: seq<Element>, messages: Messages)

  /** The aggregate flag after a run, and the page as the run leaves it. */
  datatype RunResult = RunResult(passed: bool, page: Page)

  /** Whether `$('#' + id + ' .validate')` selects the element. */
  predicate Selected(e: Element)
  {
    Validate in e.classes
  }

  /** One step of the `each` loop: an element the selector does not pick is not
      visited, and once the flag is cleared the callback returns at once (line 79). */
  function Visit(passed: bool, e: Element, msgs: Messages, flagIfCorrect: bool, values: PageValues): Processed
  {
    if !Selected(e) || !passed then Processed(passed, e, msgs)
    else ProcessElement(passed, e, msgs, flagIfCorrect, values)
  }

  /** The `each` loop over `es`, from the flag `passed` and the message elements `msgs`. */
  function RunFrom(es: seq<Element>, passed: bool, msgs: Messages, flagIfCorrect: bool, values: PageValues): (r: RunResult)
    ensures |r.page.elements| == |es|
    ensures r.passed ==> passed
    ensures r.page.messages.Keys == msgs.Keys
  {
    if es == [] then RunResult(passed, Page([], msgs))
    else
      var p := Visit(passed, es[0], msgs, flagIfCorrect, values);
      var rest := RunFrom(es[1..], p.passed, p.messages, flagIfCorrect, values);
      RunResult(rest.passed, Page([p.element] + rest.page.elements, rest.page.messages))
  }

  // ---------------------------------------------------------------------------
  // The outcome of a run in closed form
  // ---------------------------------------------------------------------------

  /** The position of the first selected element that fails, if any. */
  function FirstFailing(es: seq<Element>, values: PageValues): (r: Option<nat>)
    ensures r.None? <==> forall k :: 0 <= k < |es| && Selected(es[k]) ==> Verdict(es[k], values)
    ensures r.Some? ==> r.value < |es| && Selected(es[r.value]) && !Verdict(es[r.value], values)
    ensures r.Some? ==> forall k :: 0 <= k < r.value && Selected(es[k]) ==> Verdict(es[k], values)
  {
    if es == [] then None
    else if Selected(es[0]) && !Verdict(es[0], values) then Some(0)
    else
      match FirstFailing(es[1..], values)
      case None => None
      case Some(k) => Some(k + 1)
  }

  /** The element at position `k` after a run whose first failure is at `f`:
      selected elements before the failure are marked correct when asked
      for, the failing one gets error-alert, everything else is untouched. */
  function ExpectedElement(e: Element, k: nat, f: Option<nat>, flagIfCorrect: bool): Element
  {
    if !Selected(e) then e
    else if f.None? || k < f.value then (if flagIfCorrect then ShowCorrect(e) else e)
    else if k == f.value then e.(classes := e.classes + {ErrorAlert})
    else e
  }

  /** What a run of `es` with message elements `msgs` yields: the flag says
      whether no selected element fails; only the first failing element's
      message is shown. */
  function Expected(es: seq<Element>, msgs: Messages, flagIfCorrect: bool, values: PageValues): (r: RunResult)
    ensures |r.page.elements| == |es|
    ensures r.passed <==> forall k :: 0 <= k < |es| && Selected(es[k]) ==> Verdict(es[k], values)
    ensures r.page.messages.Keys == msgs.Keys
  {
    var f := FirstFailing(es, values);
    var elements := seq(|es|, k requires 0 <= k < |es| => ExpectedElement(es[k], k, f, flagIfCorrect));
    var messages := if f.Some? then ShowError(es[f.value], msgs).messages else msgs;
    RunResult(f.None?, Page(elements, messages))
  }

  /** Once the flag is cleared, the rest of the loop changes nothing. */
  lemma {:induction false} SkipAfterFailure(es: seq<Element>, msgs: Messages, flagIfCorrect: bool, values: PageValues)
    ensures RunFrom(es, false, msgs, flagIfCorrect, values) == RunResult(false, Page(es, msgs))
  {
    if es != [] {
      SkipAfterFailure(es[1..], msgs, flagIfCorrect, values);
      assert [es[0]] + es[1..] == es;
    }
  }

  /** A run whose first selected element fails shows its error and stops. */
  lemma RunFromFailingHead(es: seq<Element>, msgs: Messages, flagIfCorrect: bool, values: PageValues)
    requires es != [] && Selected(es[0]) && !Verdict(es[0], values)
    ensures RunFrom(es, true, msgs, flagIfCorrect, values) == Expected(es, msgs, flagIfCorrect, values)
  {
    var p := Visit(true, es[0], msgs, flagIfCorrect, values);
    SkipAfterFailure(es[1..], p.messages, flagIfCorrect, values);
    var expected := Expected(es, msgs, flagIfCorrect, values);
    assert FirstFailing(es, values) == Some(0);
    assert expected.page.elements == [p.element] + es[1..];
    assert expected.page.messages == p.messages;
  }

  /** When the first element does not fail, the first failure of `es` is
      that of the rest, one position later. */
  lemma FirstFailingShift(es: seq<Element>, values: PageValues)
    requires es != [] && !(Selected(es[0]) && !Verdict(es[0], values))
    ensures var f' := FirstFailing(es[1..], values);
            FirstFailing(es, values) == if f'.None? then None else Some(f'.value + 1)
  {
  }

  /** The closed form's elements shift by one position with the first failure. */
  lemma ExpectedElementsShift(es: seq<Element>, msgs: Messages, flagIfCorrect: bool, values: PageValues)
    requires es != [] && !(Selected(es[0]) && !Verdict(es[0], values))
    ensures Expected(es, msgs, flagIfCorrect, values).page.elements
         == [ExpectedElement(es[0], 0, FirstFailing(es, values), flagIfCorrect)]
            + Expected(es[1..], msgs, flagIfCorrect, values).page.elements
  {
    FirstFailingShift(es, values);
    var f := FirstFailing(es, values);
    var f' := FirstFailing(es[1..], values);
    var expected := Expected(es, msgs, flagIfCorrect, values).page.elements;
    var rest := Expected(es[1..], msgs, flagIfCorrect, values).page.elements;
    forall k | 1 <= k < |es|
      ensures expected[k] == rest[k - 1]
    {
      assert es[1..][k - 1] == es[k];
      ExpectedElementShift(es[k], k, f, f', flagIfCorrect);
    }
    assert expected == [expected[0]] + rest;
  }

  /** Moving an element one position back along with the first failure
      leaves its expected state alone. */
  lemma ExpectedElementShift(e: Element, k: nat, f: Option<nat>, f': Option<nat>, flagIfCorrect: bool)
    requires 1 <= k && f == if f'.None? then None else Some(f'.value + 1)
    ensures ExpectedElement(e, k, f, flagIfCorrect) == ExpectedElement(e, k - 1, f', flagIfCorrect)
  {
  }

  /** The closed form's flag and messages are those of the rest. */
  lemma ExpectedMessagesShift(es: seq<Element>, msgs: Messages, flagIfCorrect: bool, values: PageValues)
    requires es != [] && !(Selected(es[0]) && !Verdict(es[0], values))
    ensures Expected(es, msgs, flagIfCorrect, values).passed == Expected(es[1..], msgs, flagIfCorrect, values).passed
    ensures Expected(es, msgs, flagIfCorrect, values).page.messages == Expected(es[1..], msgs, flagIfCorrect, values).page.messages
  {
    FirstFailingShift(es, values);
    var f := FirstFailing(es, values);
    var f' := FirstFailing(es[1..], values);
    if f'.Some? {
      assert es[1..][f'.value] == es[f.value];
    }
  }

  /** A run whose first element is not selected or passes continues with the
      rest, and the closed form shifts by one position. */
  lemma RunFromPassingHead(es: seq<Element>, msgs: Messages, flagIfCorrect: bool, values: PageValues)
    requires es != [] && !(Selected(es[0]) && !Verdict(es[0], values))
    requires RunFrom(es[1..], true, msgs, flagIfCorrect, values) == Expected(es[1..], msgs, flagIfCorrect, values)
    ensures RunFrom(es, true, msgs, flagIfCorrect, values) == Expected(es, msgs, flagIfCorrect, values)
  {
    var p := Visit(true, es[0], msgs, flagIfCorrect, values);
    FirstFailingShift(es, values);
    assert p.passed && p.messages == msgs;
    assert p.element == ExpectedElement(es[0], 0, FirstFailing(es, values), flagIfCorrect);
    ExpectedElementsShift(es, msgs, flagIfCorrect, values);
    ExpectedMessagesShift(es, msgs, flagIfCorrect, values);
  }

  /** The loop computes the closed form. */
  lemma {:induction false} RunFromIsExpected(es: seq<Element>, msgs: Messages, flagIfCorrect: bool, values: PageValues)
    ensures RunFrom(es, true, msgs, flagIfCorrect, values) == Expected(es, msgs, flagIfCorrect, values)
  {
    if es != [] {
      if Selected(es[0]) && !Verdict(es[0], values) {
        RunFromFailingHead(es, msgs, flagIfCorrect, values);
      } else {
        RunFromIsExpected(es[1..], msgs, flagIfCorrect, values);
        RunFromPassingHead(es, msgs, flagIfCorrect, values);
      }
    }
  }

  // ---------------------------------------------------------------------------
  // run
  // ---------------------------------------------------------------------------

  /** `run` (line 75): sets the flag, then visits the container's elements.
      The flag ends set exactly when every selected element passes. */
  function Run(page: Page, flagIfCorrect: bool, values: PageValues): (r: RunResult)
    ensures r == Expected(page.elements, page.messages, flagIfCorrect, values)
    ensures r.passed <==> forall k :: 0 <= k < |page.elements| && Selected(page.elements[k]) ==> Verdict(page.elements[k], values)
  {
    RunFromIsExpected(page.elements, page.messages, flagIfCorrect, values);
    RunFrom(page.elements, true, page.messages, flagIfCorrect, values)
  }

  /** After the first failing element nothing changes: later elements keep
      their classes, and only the failing element's message is touched. */
  lemma RunStopsAtFirstFailure(page: Page, flagIfCorrect: bool, values: PageValues, f: nat)
    requires f < |page.elements| && Selected(page.elements[f]) && !Verdict(page.elements[f], values)
    requires forall k :: 0 <= k < f && Selected(page.elements[k]) ==> Verdict(page.elements[k], values)
    ensures var r := Run(page, flagIfCorrect, values);
            && !r.passed
            && (forall k :: f < k < |page.elements| ==> r.page.elements[k] == page.elements[k])
            && ErrorAlert in r.page.elements[f].classes
            && r.page.messages == ShowError(page.elements[f], page.messages).messages
  {
    var g := FirstFailing(page.elements, values);
    assert g == Some(f) by {
      if g.value < f {
      } else if g.value > f {
      }
    }
  }

  /** The feedback of a run, element by element: an element not selected is
      untouched; a selected element before the first failure gains
      correct-alert exactly when asked for; no class is ever removed; and the
      only element that gains error-alert is the first failing one. */
  lemma RunFeedback(page: Page, flagIfCorrect: bool, values: PageValues, k: nat)
    requires k < |page.elements|
    ensures var e := page.elements[k];
            var e' := Run(page, flagIfCorrect, values).page.elements[k];
            var f := FirstFailing(page.elements, values);
            && e.classes <= e'.classes
            && e' == e.(classes := e'.classes)
            && (!Selected(e) ==> e' == e)
            && (Selected(e) && (f.None? || k < f.value) ==> (CorrectAlert in e'.classes <==> flagIfCorrect || CorrectAlert in e.classes))
            && (ErrorAlert in e'.classes && ErrorAlert !in e.classes ==> f == Some(k))
  {
  }

  // ---------------------------------------------------------------------------
  // Running twice
  // ---------------------------------------------------------------------------

  /** Two sequences whose elements agree on selection and verdict fail first at the same place. */
  lemma FirstFailingAgrees(es: seq<Element>, es': seq<Element>, values: PageValues)
    requires |es'| == |es|
    requires forall k :: 0 <= k < |es| ==> (Selected(es'[k]) <==> Selected(es[k]))
    requires forall k :: 0 <= k < |es| ==> (Verdict(es'[k], values) <==> Verdict(es[k], values))
    ensures FirstFailing(es', values) == FirstFailing(es, values)
  {
  }

  /** An element after a run is selected and judged as before it. */
  lemma ExpectedElementKeepsVerdict(e: Element, k: nat, f: Option<nat>, flagIfCorrect: bool, values: PageValues)
    ensures Selected(ExpectedElement(e, k, f, flagIfCorrect)) <==> Selected(e)
    ensures Verdict(ExpectedElement(e, k, f, flagIfCorrect), values) <==> Verdict(e, values)
  {
    FeedbackIsInert(e, values);
    assert ShowError(e, map[]).element == e.(classes := e.classes + {ErrorAlert});
  }

  /** A run leaves the first failure where it was. */
  lemma RunKeepsFirstFailing(page: Page, flagIfCorrect: bool, values: PageValues)
    ensures FirstFailing(Run(page, flagIfCorrect, values).page.elements, values) == FirstFailing(page.elements, values)
  {
    var es := page.elements;
    var es' := Run(page, flagIfCorrect, values).page.elements;
    var f := FirstFailing(es, values);
    forall k | 0 <= k < |es|
      ensures Selected(es'[k]) <==> Selected(es[k])
      ensures Verdict(es'[k], values) <==> Verdict(es[k], values)
    {
      ExpectedElementKeepsVerdict(es[k], k, f, flagIfCorrect, values);
    }
    FirstFailingAgrees(es, es', values);
  }

  /** Applying the feedback of a run twice to one element is applying it once. */
  lemma ExpectedElementIdempotent(e: Element, k: nat, f: Option<nat>, flagIfCorrect: bool)
    ensures ExpectedElement(ExpectedElement(e, k, f, flagIfCorrect), k, f, flagIfCorrect) == ExpectedElement(e, k, f, flagIfCorrect)
  {
    var e' := ExpectedElement(e, k, f, flagIfCorrect);
    assert Selected(e') == Selected(e);
    if Selected(e) && (f.None? || k < f.value) && flagIfCorrect {
      assert e'.classes + {CorrectAlert} == e'.classes;
    } else if Selected(e) && f.Some? && k == f.value {
      assert e'.classes + {ErrorAlert} == e'.classes;
    }
  }

  /** Running the validation a second time over the page the first run left
      yields the same flag and the same page. */
  lemma RunIdempotent(page: Page, flagIfCorrect: bool, values: PageValues)
    ensures var once := Run(page, flagIfCorrect, values);
            Run(once.page, flagIfCorrect, values) == once
  {
    var es := page.elements;
    var once := Run(page, flagIfCorrect, values);
    var es' := once.page.elements;
    var f := FirstFailing(es, values);
    RunKeepsFirstFailing(page, flagIfCorrect, values);
    var twice := Run(once.page, flagIfCorrect, values);
    assert twice.passed == once.passed;
    forall k | 0 <= k < |es|
      ensures twice.page.elements[k] == es'[k]
    {
      ExpectedElementIdempotent(es[k], k, f, flagIfCorrect);
    }
    assert twice.page.elements == es';
    if f.Some? {
      ShowErrorIdempotent(es[f.value], page.messages);
      assert es'[f.value] == ShowError(es[f.value], page.messages).element;
    }
    assert twice.page.messages == once.page.messages;
  }

  // ---------------------------------------------------------------------------
  // The handlers
  // ---------------------------------------------------------------------------

  /** The submit handler of `bindOnSubmit` (line 51): runs the validation and
      prevents the form's submission exactly when the run did not pass. */
  datatype Submission = Submission(result: RunResult, preventDefault: bool)

  function OnSubmit(page: Page, flagIfCorrect: bool, values: PageValues): (r: Submission)
    ensures !r.preventDefault <==> forall k :: 0 <= k < |page.elements| && Selected(page.elements[k]) ==> Verdict(page.elements[k], values)
  {
    var result := Run(page, flagIfCorrect, values);
    Submission(result, !result.passed)
  }

  /** The focus handler of `bindReset` (line 93): resets the focused element. */
  function OnFocus(page: Page, i: nat): (r: Page)
    requires i < |page.elements| && Selected(page.elements[i])
    ensures |r.elements| == |page.elements|
    ensures forall k :: 0 <= k < |page.elements| && k != i ==> r.elements[k] == page.elements[k]
    ensures r.elements[i] == page.elements[i].(classes := page.elements[i].classes - {ErrorAlert, CorrectAlert})
    ensures r.messages == HideMessage(page.messages, ResetMessageId(page.elements[i]))
  {
    var reset := Reset(page.elements[i], page.messages);
    Page(page.elements[i := reset.element], reset.messages)
  }

  /** The blur handler of `bindBlur` (line 85): resets the element that lost
      focus, then runs the validation of the whole container. */
  function OnBlur(page: Page, i: nat, flagIfCorrect: bool, values: PageValues): (r: RunResult)
    requires i < |page.elements| && Selected(page.elements[i])
    ensures r.passed == Run(page, flagIfCorrect, values).passed
    ensures r.page.messages.Keys == page.messages.Keys
  {
    ResetKeepsRun(page, i, flagIfCorrect, values);
    Run(OnFocus(page, i), flagIfCorrect, values)
  }

  /** Resetting an element before the run does not change the run's verdict. */
  lemma ResetKeepsRun(page: Page, i: nat, flagIfCorrect: bool, values: PageValues)
    requires i < |page.elements| && Selected(page.elements[i])
    ensures Run(OnFocus(page, i), flagIfCorrect, values).passed == Run(page, flagIfCorrect, values).passed
    ensures FirstFailing(OnFocus(page, i).elements, values) == FirstFailing(page.elements, values)
  {
    var es := page.elements;
    var es' := OnFocus(page, i).elements;
    FeedbackIsInert(es[i], values);
    assert Reset(es[i], page.messages).element == es'[i];
    forall k | 0 <= k < |es|
      ensures Selected(es'[k]) <==> Selected(es[k])
      ensures Verdict(es'[k], values) <==> Verdict(es[k], values)
    {
    }
    FirstFailingAgrees(es, es', values);
  }
}

=== FILE: email.dfy ===
/** The email predicate `checkEmail` (dist/validation.js:156-158).

    The source is one backtracking regular expression,

      ^(?!\.)((?!.*\.{2})[L]+)@(?!\.)([D]+)((\.([T]){2,63})+)$

    with L the `EmailLocal` class, D the `EmailDomain` class and T the
    `EmailTld` class.  `EmailPattern` states what it means for a string to
    match that expression; `CheckEmail` is the deterministic equivalent that
    splits at the `@` and at the last dot, and `CheckEmailIsPattern` proves the
    two agree on every string.
 */
module Email {
  import opened Wrappers
  import opened CharClasses

  // ---------------------------------------------------------------------------
  // The regular expression, read as a statement about splits of the string
  // ---------------------------------------------------------------------------

  /** Some character of `s` is a line terminator. */
  predicate HasLineTerminator(s: string)
  {
    exists i :: 0 <= i < |s| && IsLineTerminator(s[i])
  }

  /** The lookahead `(?!.*\.{2})` fails at the start of `s`: `.*` runs up to the
      first line terminator, so a `..` is seen only on the first line. */
  predicate DotDotOnFirstLine(s: string)
  {
    exists i :: 0 <= i < |s| - 1 && s[i] == '.' && s[i + 1] == '.' && !HasLineTerminator(s[..i])
  }

  /** `(\.[T]{2,63})+`: one or more top-level labels, each a dot and 2 to 63
      range letters; the first group ends just before position `j`. */
  ghost predicate TldGroups(g: string)
    decreases |g|
  {
    exists j :: 3 <= j <= 64 && j <= |g| && g[0] == '.' && AllIn(EmailTld, g[1..j])
      && (j == |g| || TldGroups(g[j..]))
  }

  /** `s` matches the email expression: `a` is the position of the `@` and `b`
      the start of the top-level label groups. */
  ghost predicate EmailPattern(s: string)
  {
    exists a, b :: 0 < a < b < |s| && s[a] == '@'
      && s[0] != '.'                               // ^(?!\.)
      && !DotDotOnFirstLine(s)                     // (?!.*\.{2})
      && MatchesPlus(EmailLocal, s[..a])           // [L]+
      && s[a + 1] != '.'                           // @(?!\.)
      && MatchesPlus(EmailDomain, s[a + 1..b])     // [D]+
      && TldGroups(s[b..])                         // ((\.([T]){2,63})+)$
  }

  // ---------------------------------------------------------------------------
  // The deterministic check
  // ---------------------------------------------------------------------------

  /** No `c` occurs in `s` before position `k`. */
  predicate NoneBefore(s: string, c: char, k: int)
  {
    forall i :: 0 <= i < k && i < |s| ==> s[i] != c
  }

  /** No `c` occurs in `s` after position `k`. */
  predicate NoneAfter(s: string, c: char, k: int)
  {
    forall i :: k < i < |s| && 0 <= i ==> s[i] != c
  }

  /** The position of the first `c` in `s`. */
  function FirstIndexOf(s: string, c: char): (r: Option<nat>)
    ensures r.Some? ==> r.value < |s| && s[r.value] == c && NoneBefore(s, c, r.value)
    ensures r.None? ==> NoneBefore(s, c, |s|)
  {
    if |s| == 0 then None
    else if s[0] == c then Some(0)
    else match FirstIndexOf(s[1..], c)
      case None => None
      case Some(i) => Some(i + 1)
  }

  /** The position of the last `c` in `s`. */
  function LastIndexOf(s: string, c: char): (r: Option<nat>)
    ensures r.Some? ==> r.value < |s| && s[r.value] == c && NoneAfter(s, c, r.value)
    ensures r.None? ==> NoneAfter(s, c, -1)
  {
    if |s| == 0 then None
    else if s[|s| - 1] == c then Some(|s| - 1)
    else LastIndexOf(s[..|s| - 1], c)
  }

  /** Some `..` occurs anywhere in `s`. */
  predicate HasDotDot(s: string)
  {
    exists i :: 0 <= i < |s| - 1 && s[i] == '.' && s[i + 1] == '.'
  }

  /** `checkEmail`: the string splits at its first `@` into a local part and a
      domain, and the domain splits at its last dot into a host and a
      top-level label. */
  predicate CheckEmail(s: string): (r: bool)
    ensures r ==> '@' in s && 6 <= |s|
  {
    match FirstIndexOf(s, '@')
    case None => false
    case Some(a) =>
      var local, domain := s[..a], s[a + 1..];
      match LastIndexOf(domain, '.')
      case None => false
      case Some(d) =>
        var host, tld := domain[..d], domain[d + 1..];
        && MatchesPlus(EmailLocal, local) && local[0] != '.'
        && MatchesPlus(EmailDomain, host) && host[0] != '.'
        && 2 <= |tld| <= 63 && AllIn(EmailTld, tld)
        && !HasDotDot(s)
  }

  // ---------------------------------------------------------------------------
  // The deterministic check agrees with the regular expression
  // ---------------------------------------------------------------------------

  /** The last of one or more top-level label groups starts at the last dot of
      `g`; everything before it is made of domain characters. */
  lemma {:induction false} TldGroupsLastLabel(g: string) returns (l: nat)
    requires TldGroups(g)
    ensures l < |g| && g[l] == '.' && NoneAfter(g, '.', l)
    ensures 2 <= |g| - (l + 1) <= 63 && AllIn(EmailTld, g[l + 1..])
    ensures AllIn(EmailDomain, g[..l])
    decreases |g|
  {
    var j :| 3 <= j <= 64 && j <= |g| && g[0] == '.' && AllIn(EmailTld, g[1..j])
      && (j == |g| || TldGroups(g[j..]));
    if j == |g| {
      l := 0;
      assert g[l + 1..] == g[1..j];
    } else {
      var l' := TldGroupsLastLabel(g[j..]);
      l := j + l';
      assert g[l + 1..] == g[j..][l' + 1..];
      assert g[..l] == g[..j] + g[j..][..l'];
      assert AllIn(EmailDomain, g[..j]) by {
        forall i | 0 <= i < j ensures InClass(EmailDomain, g[..j][i]) {
          if i > 0 { assert g[..j][i] == g[1..j][i - 1]; }
        }
      }
    }
  }

  /** A string matching the expression holds no line terminator, since none
      of the expression's classes does. */
  lemma PatternHasNoLineTerminator(s: string, a: nat, b: nat, l: nat)
    requires 0 < a < b < |s| && s[a] == '@'
    requires AllIn(EmailLocal, s[..a]) && AllIn(EmailDomain, s[a + 1..b])
    requires l < |s| - b && AllIn(EmailDomain, s[b..][..l]) && s[b..][l] == '.'
    requires AllIn(EmailTld, s[b..][l + 1..])
    ensures !HasLineTerminator(s)
  {
    forall j | 0 <= j < |s| ensures !IsLineTerminator(s[j]) {
      if j < a {
        assert s[j] == s[..a][j];
        EmailClassesExcludeLineTerminators(EmailLocal, s[j]);
      } else if a < j < b {
        assert s[j] == s[a + 1..b][j - a - 1];
        EmailClassesExcludeLineTerminators(EmailDomain, s[j]);
      } else if b <= j < b + l {
        assert s[j] == s[b..][..l][j - b];
        EmailClassesExcludeLineTerminators(EmailDomain, s[j]);
      } else if b + l < j {
        assert s[j] == s[b..][l + 1..][j - b - l - 1];
        EmailClassesExcludeLineTerminators(EmailTld, s[j]);
      }
    }
  }

  /** The first occurrence of `c` is the one with no `c` before it. */
  lemma FirstIndexOfAt(s: string, c: char, a: nat)
    requires a < |s| && s[a] == c && NoneBefore(s, c, a)
    ensures FirstIndexOf(s, c) == Some(a)
  {
  }

  /** The last occurrence of `c` is the one with no `c` after it. */
  lemma LastIndexOfAt(s: string, c: char, d: nat)
    requires d < |s| && s[d] == c && NoneAfter(s, c, d)
    ensures LastIndexOf(s, c) == Some(d)
  {
  }

  /** Without line terminators, the lookahead sees every `..` of the string. */
  lemma NoDotDotWithoutLineTerminator(s: string)
    requires !HasLineTerminator(s) && !DotDotOnFirstLine(s)
    ensures !HasDotDot(s)
  {
    if HasDotDot(s) {
      var i :| 0 <= i < |s| - 1 && s[i] == '.' && s[i + 1] == '.';
      assert !HasLineTerminator(s[..i]) by {
        forall j | 0 <= j < i ensures !IsLineTerminator(s[..i][j]) {
          assert s[..i][j] == s[j];
        }
      }
      assert DotDotOnFirstLine(s);
    }
  }

  /** `CheckEmail` read off a known `@` position `a` and last-dot position `d`. */
  lemma CheckEmailAt(s: string, a: nat, d: nat)
    requires FirstIndexOf(s, '@') == Some(a)
    requires LastIndexOf(s[a + 1..], '.') == Some(d)
    requires MatchesPlus(EmailLocal, s[..a]) && s[0] != '.'
    requires MatchesPlus(EmailDomain, s[a + 1..][..d]) && s[a + 1] != '.'
    requires 2 <= |s[a + 1..][d + 1..]| <= 63 && AllIn(EmailTld, s[a + 1..][d + 1..])
    requires !HasDotDot(s)
    ensures CheckEmail(s)
  {
  }

  /** The host before the last dot is the `[D]+` part followed by the earlier label groups. */
  lemma HostChars(s: string, a: nat, b: nat, l: nat, d: nat)
    requires 0 < a < b < |s| && l < |s| - b && d == b - a - 1 + l
    requires MatchesPlus(EmailDomain, s[a + 1..b]) && AllIn(EmailDomain, s[b..][..l])
    ensures MatchesPlus(EmailDomain, s[a + 1..][..d])
    ensures s[a + 1..][..d][0] == s[a + 1]
  {
    var host := s[a + 1..][..d];
    forall i | 0 <= i < |host| ensures InClass(EmailDomain, host[i]) {
      assert host[i] == s[a + 1 + i];
      if i < b - a - 1 { assert s[a + 1 + i] == s[a + 1..b][i]; }
      else { assert s[a + 1 + i] == s[b..][..l][i - (b - a - 1)]; }
    }
  }

  /** After the `@` at `a`, the domain of a matching string splits at its last
      dot `d` into a `[D]+` host and the last top-level label. */
  lemma PatternDomainSplit(s: string, a: nat, b: nat) returns (d: nat)
    requires 0 < a < b < |s| && s[a] == '@' && AllIn(EmailLocal, s[..a])
    requires MatchesPlus(EmailDomain, s[a + 1..b]) && TldGroups(s[b..])
    ensures LastIndexOf(s[a + 1..], '.') == Some(d)
    ensures MatchesPlus(EmailDomain, s[a + 1..][..d]) && s[a + 1..][..d][0] == s[a + 1]
    ensures 2 <= |s[a + 1..][d + 1..]| <= 63 && AllIn(EmailTld, s[a + 1..][d + 1..])
    ensures !HasLineTerminator(s)
  {
    var domain, g := s[a + 1..], s[b..];
    var l := TldGroupsLastLabel(g);
    d := (b - a - 1) + l;
    assert domain[d] == g[l];
    assert domain[d + 1..] == g[l + 1..];
    assert NoneAfter(domain, '.', d) by {
      forall i | d < i < |domain| ensures domain[i] != '.' {
        assert domain[i] == g[i - (b - a - 1)];
      }
    }
    LastIndexOfAt(domain, '.', d);
    HostChars(s, a, b, l, d);
    PatternHasNoLineTerminator(s, a, b, l);
  }

  lemma PatternImpliesCheck(s: string)
    requires EmailPattern(s)
    ensures CheckEmail(s)
  {
    var a, b :| 0 < a < b < |s| && s[a] == '@'
      && s[0] != '.'
      && !DotDotOnFirstLine(s)
      && MatchesPlus(EmailLocal, s[..a])
      && s[a + 1] != '.'
      && MatchesPlus(EmailDomain, s[a + 1..b])
      && TldGroups(s[b..]);
    // The `@` is the first one: local-part characters are never `@`.
    assert NoneBefore(s, '@', a) by {
      forall i | 0 <= i < a ensures s[i] != '@' {
        assert InClass(EmailLocal, s[..a][i]);
      }
    }
    FirstIndexOfAt(s, '@', a);
    var d := PatternDomainSplit(s, a, b);
    NoDotDotWithoutLineTerminator(s);
    CheckEmailAt(s, a, d);
  }

  /** One dot followed by 2 to 63 top-level letters is a single group. */
  lemma SingleTldGroup(g: string)
    requires 3 <= |g| <= 64 && g[0] == '.' && AllIn(EmailTld, g[1..])
    ensures TldGroups(g)
  {
    assert g[1..|g|] == g[1..];
  }

  /** A `..` before the first line terminator is a `..`. */
  lemma NoDotDotAtAll(s: string)
    requires !HasDotDot(s)
    ensures !DotDotOnFirstLine(s)
  {
  }

  lemma CheckImpliesPattern(s: string)
    requires CheckEmail(s)
    ensures EmailPattern(s)
  {
    var a, d := CheckEmailParts(s);
    var domain := s[a + 1..];
    var b := a + 1 + d;
    var g := s[b..];
    assert s[a + 1..b] == domain[..d];
    assert g[1..] == domain[d + 1..];
    SingleTldGroup(g);
    NoDotDotAtAll(s);
    assert s[a] == '@' && s[a + 1] != '.' && b < |s|;
    assert MatchesPlus(EmailDomain, s[a + 1..b]);
  }

  /** `CheckEmail` accepts exactly the strings the regular expression of
      dist/validation.js:157 matches (case folding of non-ASCII letters aside). */
  lemma CheckEmailIsPattern(s: string)
    ensures CheckEmail(s) <==> EmailPattern(s)
  {
    if CheckEmail(s) { CheckImpliesPattern(s); }
    if EmailPattern(s) { PatternImpliesCheck(s); }
  }

  /** The split `CheckEmail` makes, for an accepted string. */
  lemma CheckEmailParts(s: string) returns (a: nat, d: nat)
    requires CheckEmail(s)
    ensures FirstIndexOf(s, '@') == Some(a) && LastIndexOf(s[a + 1..], '.') == Some(d)
    ensures MatchesPlus(EmailLocal, s[..a]) && s[0] != '.'
    ensures MatchesPlus(EmailDomain, s[a + 1..][..d]) && s[a + 1] != '.'
    ensures 2 <= |s[a + 1..][d + 1..]| <= 63 && AllIn(EmailTld, s[a + 1..][d + 1..])
    ensures !HasDotDot(s)
  {
    a := FirstIndexOf(s, '@').value;
    d := LastIndexOf(s[a + 1..], '.').value;
    assert s[a + 1] == s[a + 1..][..d][0];
  }

  /** Position `a` holds the only `@` of `s`. */
  lemma OnlyAt(s: string, a: nat, d: nat)
    requires a + 1 + d < |s| && NoneBefore(s, '@', a) && s[a + 1 + d] == '.'
    requires AllIn(EmailDomain, s[a + 1..][..d]) && AllIn(EmailTld, s[a + 1..][d + 1..])
    ensures forall i :: 0 <= i < |s| && s[i] == '@' ==> i == a
  {
  }

  /** What an accepted address looks like: exactly one `@`, no leading dot, no
      dot right after the `@`, no `..`, and a last dot followed by 2 to 63 range
      letters (so no digits). */
  lemma EmailAcceptedShape(s: string) returns (l: nat)
    requires CheckEmail(s)
    ensures '@' in s && forall i, j :: 0 <= i < j < |s| && s[i] == '@' ==> s[j] != '@'
    ensures s[0] != '.'
    ensures forall i :: 0 <= i < |s| - 1 && s[i] == '@' ==> s[i + 1] != '.'
    ensures !HasDotDot(s)
    ensures l < |s| && s[l] == '.' && NoneAfter(s, '.', l)
    ensures 2 <= |s| - (l + 1) <= 63 && AllIn(EmailTld, s[l + 1..])
    ensures forall i :: l < i < |s| ==> !IsDigit(s[i])
  {
    var a, d := CheckEmailParts(s);
    OnlyAt(s, a, d);
    l := a + 1 + d;
    assert s[l + 1..] == s[a + 1..][d + 1..];
    assert s[l] == s[a + 1..][d];
    forall i | l < i < |s| ensures !IsDigit(s[i]) {
      assert s[i] == s[l + 1..][i - l - 1];
    }
  }

  /** Examples: `a@b.co` is accepted. */
  lemma EmailAcceptsShortAddress()
    ensures CheckEmail("a@b.co")
  {
    var s := "a@b.co";
    FirstIndexOfAt(s, '@', 1);
    var domain := s[2..];
    assert domain == "b.co";
    LastIndexOfAt(domain, '.', 1);
    assert s[..1] == "a" && domain[..1] == "b" && domain[2..] == "co";
    ShortAddressPieces();
    CheckEmailAt(s, 1, 1);
  }

  /** The pieces of `a@b.co` are in their classes, and it has no `..`. */
  lemma ShortAddressPieces()
    ensures MatchesPlus(EmailLocal, "a") && MatchesPlus(EmailDomain, "b") && AllIn(EmailTld, "co")
    ensures !HasDotDot("a@b.co")
  {
  }

  /** A one-letter top-level label is rejected. */
  lemma EmailRejectsShortTld()
    ensures !CheckEmail("a@b.c")
  {
    var s := "a@b.c";
    FirstIndexOfAt(s, '@', 1);
    assert s[2..] == "b.c";
    LastIndexOfAt("b.c", '.', 1);
    assert "b.c"[2..] == "c";
  }

  /** A leading dot is rejected. */
  lemma EmailRejectsLeadingDot()
    ensures !CheckEmail(".a@b.com")
  {
    var s := ".a@b.com";
    FirstIndexOfAt(s, '@', 2);
    assert s[..2][0] == '.';
  }

  /** Consecutive dots are rejected. */
  lemma EmailRejectsDotDot()
    ensures !CheckEmail("a..b@c.com")
  {
    var s := "a..b@c.com";
    assert s[1] == '.' && s[2] == '.';
  }

  /** A dot right after the `@` is rejected. */
  lemma EmailRejectsDotAfterAt()
    ensures !CheckEmail("a@.co")
  {
    var s := "a@.co";
    FirstIndexOfAt(s, '@', 1);
    assert s[2..] == ".co";
    LastIndexOfAt(".co", '.', 0);
  }
}

=== FILE: feedback.dfy ===
/** The visible effects of a verdict (dist/validation.js, lines 98 to 102,
    103 to 148 and 202 to 209): the feedback classes on the element and its
    paired message element `<id>-message`.

    Message elements are kept by id.  An id with no message element is
    missing from the map; jQuery then selects nothing, and every update of
    it does nothing.
 */
module Feedback {
  import opened Wrappers
  import opened Rules
  import opened Fields

  /** A message element: whether it carries the class `hidden`, and its HTML content. */
  datatype Message = Message(hidden: bool, html: string)

  type Messages = map<string, Message>

  /** `showError` finds the message through `$(el).attr('id')`, which is
      `undefined` for an element without an id. */
  function ShownMessageId(e: Element): string
  {
    e.id.GetOr("undefined") + "-message"
  }

  /** `reset` finds the message through the DOM property `el.id`, which is
      the empty string for an element without an id. */
  function ResetMessageId(e: Element): string
  {
    e.id.GetOr("") + "-message"
  }

  /** Adds `hidden` back to message `key`, if that element exists. */
  function HideMessage(msgs: Messages, key: string): (r: Messages)
    ensures r.Keys == msgs.Keys
    ensures key in msgs ==> r[key] == msgs[key].(hidden := true)
    ensures forall k :: k in msgs && k != key ==> r[k] == msgs[k]
  {
    if key in msgs then msgs[key := msgs[key].(hidden := true)] else msgs
  }

  /** The element and message elements after an update. */
  datatype Shown = Shown(element: Element, messages: Messages)

  /** `showError` (line 202): adds error-alert to the element; if the element
      has a truthy error message, it becomes the content of the message
      element; the message element loses `hidden`. */
  function ShowError(e: Element, msgs: Messages): (r: Shown)
    ensures r.element == e.(classes := e.classes + {ErrorAlert})
    ensures r.messages.Keys == msgs.Keys
    ensures forall k :: k in msgs && k != ShownMessageId(e) ==> r.messages[k] == msgs[k]
    ensures ShownMessageId(e) in msgs ==>
              && !r.messages[ShownMessageId(e)].hidden
              && r.messages[ShownMessageId(e)].html
                 == (if TruthyString(e.errorMessage) then e.errorMessage.value else msgs[ShownMessageId(e)].html)
  {
    var key := ShownMessageId(e);
    var element := e.(classes := e.classes + {ErrorAlert});
    if key !in msgs then Shown(element, msgs)
    else
      var html := if TruthyString(e.errorMessage) then e.errorMessage.value else msgs[key].html;
      Shown(element, msgs[key := Message(false, html)])
  }

  /** `showCorrect` (line 209): adds correct-alert to the element. */
  function ShowCorrect(e: Element): (r: Element)
    ensures r.classes == e.classes + {CorrectAlert}
    ensures r == e.(classes := r.classes)
  {
    e.(classes := e.classes + {CorrectAlert})
  }

  /** `reset` (line 98): removes both feedback classes from the element and
      hides its message element. */
  function Reset(e: Element, msgs: Messages): (r: Shown)
    ensures r.element.classes == e.classes - {ErrorAlert, CorrectAlert}
    ensures r.element == e.(classes := r.element.classes)
    ensures r.messages == HideMessage(msgs, ResetMessageId(e))
  {
    Shown(e.(classes := e.classes - {CorrectAlert, ErrorAlert}), HideMessage(msgs, ResetMessageId(e)))
  }

  /** Both updates are idempotent: showing an error twice is showing it once,
      and so is marking an element correct twice. */
  lemma ShowErrorIdempotent(e: Element, msgs: Messages)
    ensures var once := ShowError(e, msgs); ShowError(once.element, once.messages) == once
    ensures ShowCorrect(ShowCorrect(e)) == ShowCorrect(e)
  {
    var once := ShowError(e, msgs);
    assert once.element.classes + {ErrorAlert} == once.element.classes;
    assert ShownMessageId(once.element) == ShownMessageId(e);
  }

  /** Reset undoes the error feedback of an element with an id: the classes
      lose both alerts and the message that showError revealed is hidden again,
      with the content showError left there. */
  lemma ResetUndoesShowError(e: Element, msgs: Messages)
    requires e.id.Some?
    ensures var shown := ShowError(e, msgs);
            var back := Reset(shown.element, shown.messages);
            && back.element.classes == e.classes - {ErrorAlert, CorrectAlert}
            && back.messages.Keys == msgs.Keys
            && (ShownMessageId(e) in msgs ==> back.messages[ShownMessageId(e)].hidden)
  {
  }

  /** For an element without an id the two lookups differ: showError reveals
      `undefined-message` while reset hides `-message`. */
  lemma ResetMissesShownMessageWithoutId(e: Element, msgs: Messages)
    requires e.id.None? && ShownMessageId(e) in msgs
    ensures var shown := ShowError(e, msgs);
            !Reset(shown.element, shown.messages).messages[ShownMessageId(e)].hidden
  {
    assert ResetMessageId(e) != ShownMessageId(e) by {
      assert |ResetMessageId(e)| != |ShownMessageId(e)|;
    }
  }

  // ---------------------------------------------------------------------------
  // processElement
  // ---------------------------------------------------------------------------

  /** The aggregate flag, the element and the message elements after
      `processElement`. */
  datatype Processed = Processed(passed: bool, element: Element, messages: Messages)

  /** `processElement` (line 103): when the aggregate flag is still set,
      decides the element's verdict, shows an error for a failure or, when
      asked to, marks a pass correct, and stores the verdict in the flag.
      When the flag is already cleared nothing happens. */
  function ProcessElement(passed: bool, e: Element, msgs: Messages, flagIfCorrect: bool, values: PageValues): (r: Processed)
    ensures !passed ==> r == Processed(passed, e, msgs)
    ensures passed ==> r.passed == Verdict(e, values)
    ensures passed && !Verdict(e, values) ==> Shown(r.element, r.messages) == ShowError(e, msgs)
    ensures passed && Verdict(e, values) ==> r.messages == msgs
    ensures passed && Verdict(e, values) ==> r.element == if flagIfCorrect then ShowCorrect(e) else e
  {
    if !passed then Processed(passed, e, msgs)
    else
      var pass := Verdict(e, values);
      if !pass then
        var shown := ShowError(e, msgs);
        Processed(pass, shown.element, shown.messages)
      else if flagIfCorrect then Processed(pass, ShowCorrect(e), msgs)
      else Processed(pass, e, msgs)
  }

  /** The feedback never removes a class: a failing element keeps any
      correct-alert an earlier run gave it, next to error-alert. */
  lemma ProcessElementKeepsClasses(passed: bool, e: Element, msgs: Messages, flagIfCorrect: bool, values: PageValues)
    ensures e.classes <= ProcessElement(passed, e, msgs, flagIfCorrect, values).element.classes
    ensures passed && !Verdict(e, values) ==>
              var r := ProcessElement(passed, e, msgs, flagIfCorrect, values);
              ErrorAlert in r.element.classes && (CorrectAlert in e.classes ==> CorrectAlert in r.element.classes)
  {
  }

  /** The feedback classes the engine adds do not change a later verdict. */
  lemma FeedbackIsInert(e: Element, values: PageValues)
    ensures Verdict(ShowCorrect(e), values) <==> Verdict(e, values)
    ensures forall msgs: Messages :: Verdict(ShowError(e, msgs).element, values) <==> Verdict(e, values)
    ensures forall msgs: Messages :: Verdict(Reset(e, msgs).element, values) <==> Verdict(e, values)
  {
    assert ErrorAlert !in RuleMarkers && CorrectAlert !in RuleMarkers;
    var withCorrect := ShowCorrect(e);
    assert withCorrect.classes * RuleMarkers == e.classes * RuleMarkers;
    OtherClassesAreInert(e, withCorrect, values);
    var withError := e.(classes := e.classes + {ErrorAlert});
    assert withError.classes * RuleMarkers == e.classes * RuleMarkers;
    OtherClassesAreInert(e, withError, values);
    var cleared := e.(classes := e.classes - {ErrorAlert, CorrectAlert});
    assert cleared.classes * RuleMarkers == e.classes * RuleMarkers;
    OtherClassesAreInert(e, cleared, values);
  }
}

=== FILE: fields.dfy ===
/** One validated element and the verdict `processElement` reaches for it
    (dist/validation.js, lines 103 to 144).

    An element carries its class list, which holds both the rule markers the
    page author declared and the feedback classes the engine adds, and the
    data attributes the rules read.  The verdict depends on the markers and
    the data attributes only: the feedback classes are inert.
 */
module Fields {
  import opened Wrappers
  import opened Email
  import opened CharClasses
  import opened Rules

  // ---------------------------------------------------------------------------
  // Class names
  // ---------------------------------------------------------------------------

  /** Elements carrying this class inside the container take part in a run. */
  const Validate := "validate"

  const AllowEmpty := "allow-empty"
  const IsChecked := "is-checked"
  const AllowSpaces := "allow-spaces"
  const AllowSpecial := "allow-special-characters"

  /** Added to an element that fails. */
  const ErrorAlert := "error-alert"
  /** Added to an element that passes, when the caller asks for it. */
  const CorrectAlert := "correct-alert"

  // ---------------------------------------------------------------------------
  // Elements
  // ---------------------------------------------------------------------------

  /** What the engine reads of one element:
      - `id`: the id attribute, absent when the element has none;
      - `isCheckbox`: the type attribute is "checkbox";
      - `checked`: whether `:checked` matches the element;
      - `value`: `.val()`;
      - `classes`: the class list;
      - `lengthMin`, `lengthMax`: `data-validation-length-min` and `-max`;
      - `matchId`: `data-validation-match`;
      - `errorMessage`: `data-error-message`. */
  datatype Element = Element(
    id: Option<string>,
    isCheckbox: bool,
    checked: bool,
    value: Option<string>,
    classes: set<string>,
    lengthMin: Option<int>,
    lengthMax: Option<int>,
    matchId: Option<string>,
    errorMessage: Option<string>)

  // ---------------------------------------------------------------------------
  // The checks of a non-empty value, in the order they are applied
  // ---------------------------------------------------------------------------

  datatype Check = EmailShape | NumbersOnly | LettersOnly | AlphaNumericOnly | Length | Match

  /** Lines 119 to 143 apply the declared checks in this order. */
  const CheckOrder: seq<Check> := [EmailShape, NumbersOnly, LettersOnly, AlphaNumericOnly, Length, Match]

  /** The class that declares a check. */
  function Marker(c: Check): string
  {
    match c
    case EmailShape => "check-email"
    case NumbersOnly => "numbers-only"
    case LettersOnly => "letters-only"
    case AlphaNumericOnly => "alphanumeric-only"
    case Length => "check-length"
    case Match => "check-match"
  }

  /** Every class the verdict reads. */
  const RuleMarkers: set<string> := {
    AllowEmpty, IsChecked, AllowSpaces, AllowSpecial,
    "check-email", "numbers-only", "letters-only", "alphanumeric-only", "check-length", "check-match"
  }

  predicate Declares(e: Element, c: Check)
  {
    Marker(c) in e.classes
  }

  /** Whether the rule behind check `c` accepts the value `v` of element `e`,
      with the flags and parameters the element declares. */
  predicate Holds(c: Check, e: Element, v: string, values: PageValues)
  {
    var spaces := AllowSpaces in e.classes;
    var special := AllowSpecial in e.classes;
    match c
    case EmailShape => CheckEmail(v)
    case NumbersOnly => CheckNumbersOnly(v, spaces, special)
    case LettersOnly => Truthy(CheckLettersOnly(v, spaces, special))
    case AlphaNumericOnly => CheckAlphaNumeric(v, spaces)
    case Length => CheckLength(v, e.lengthMin, e.lengthMax)
    case Match => CheckMatch(v, e.matchId, values)
  }

  /** The chain as the source writes it: `pass` turns false at the first
      declared check that fails, and once false no further check is evaluated. */
  function Chain(cs: seq<Check>, e: Element, v: string, values: PageValues, pass: bool): (r: bool)
    ensures r ==> pass
  {
    if cs == [] then pass
    else
      var pass' := if pass && Declares(e, cs[0]) && !Holds(cs[0], e, v, values) then false else pass;
      Chain(cs[1..], e, v, values, pass')
  }

  /** A check lets the value through: it is not declared, or it holds. */
  predicate Passes(c: Check, e: Element, v: string, values: PageValues)
  {
    !Declares(e, c) || Holds(c, e, v, values)
  }

  /** The outcome of each check of `cs`, in order. */
  function Outcomes(cs: seq<Check>, e: Element, v: string, values: PageValues): (r: seq<bool>)
    ensures |r| == |cs|
    ensures forall i :: 0 <= i < |cs| ==> r[i] == Passes(cs[i], e, v, values)
  {
    seq(|cs|, i requires 0 <= i < |cs| => Passes(cs[i], e, v, values))
  }

  /** The position of the first false outcome, if any. */
  function FirstFalse(bs: seq<bool>): (r: Option<nat>)
    ensures r.None? <==> forall i :: 0 <= i < |bs| ==> bs[i]
    ensures r.Some? ==> r.value < |bs| && !bs[r.value] && forall i :: 0 <= i < r.value ==> bs[i]
  {
    if bs == [] then None
    else if !bs[0] then Some(0)
    else
      match FirstFalse(bs[1..])
      case None => None
      case Some(k) => Some(k + 1)
  }

  /** The chain passes exactly when it starts passing and every check of `cs`
      lets the value through: the verdict is the conjunction of the declared
      checks. */
  lemma {:induction false} ChainIsConjunction(cs: seq<Check>, e: Element, v: string, values: PageValues, pass: bool)
    ensures Chain(cs, e, v, values, pass) <==> pass && forall i :: 0 <= i < |cs| ==> Passes(cs[i], e, v, values)
  {
    if cs != [] {
      var pass' := if pass && Declares(e, cs[0]) && !Holds(cs[0], e, v, values) then false else pass;
      ChainIsConjunction(cs[1..], e, v, values, pass');
      assert forall i :: 1 <= i < |cs| ==> cs[1..][i - 1] == cs[i];
    }
  }

  // ---------------------------------------------------------------------------
  // The verdict for one element
  // ---------------------------------------------------------------------------

  /** Whether `processElement` lets the element pass (lines 104 to 144): a
      blank value passes only with allow-empty; a checkbox fails only when it
      declares is-checked and is not checked, and no other rule applies to it;
      any other value must satisfy every declared check, in order. */
  predicate Verdict(e: Element, values: PageValues)
  {
    var isNot := if e.isCheckbox then false else IsNullOrEmpty(e.value);
    if isNot then AllowEmpty in e.classes
    else if e.isCheckbox then !(IsChecked in e.classes && !e.checked)
    else Chain(CheckOrder, e, e.value.value, values, true)
  }

  /** For a non-blank value, the check at which the chain clears `pass`, if
      any. The source records no such check; it only ends with `pass` false. */
  function FailedCheck(e: Element, values: PageValues): (r: Option<Check>)
    requires !e.isCheckbox && !IsNullOrEmpty(e.value)
    ensures r.None? <==> Verdict(e, values)
    ensures r.Some? ==> Declares(e, r.value) && !Holds(r.value, e, e.value.value, values)
  {
    var v := e.value.value;
    ChainIsConjunction(CheckOrder, e, v, values, true);
    match FirstFalse(Outcomes(CheckOrder, e, v, values))
    case None => None
    case Some(k) => Some(CheckOrder[k])
  }

  /** A blank value (absent, empty or all white space) passes exactly when the
      element allows empty values; the rules are not consulted. */
  lemma BlankPassesIffAllowEmpty(e: Element, values: PageValues)
    requires !e.isCheckbox && IsNullOrEmpty(e.value)
    ensures Verdict(e, values) <==> AllowEmpty in e.classes
  {
  }

  /** A checkbox fails exactly when it declares is-checked and is unchecked,
      whatever its value and other markers. */
  lemma CheckboxVerdict(e: Element, values: PageValues)
    requires e.isCheckbox
    ensures Verdict(e, values) <==> !(IsChecked in e.classes && !e.checked)
  {
  }

  /** A non-blank value passes exactly when every check it declares holds. */
  lemma VerdictIsConjunction(e: Element, values: PageValues)
    requires !e.isCheckbox && !IsNullOrEmpty(e.value)
    ensures Verdict(e, values) <==> forall c: Check :: Declares(e, c) ==> Holds(c, e, e.value.value, values)
  {
    ChainIsConjunction(CheckOrder, e, e.value.value, values, true);
    forall c: Check | Declares(e, c) && Verdict(e, values) ensures Holds(c, e, e.value.value, values) {
      assert CheckOrder[Position(c)] == c;
    }
  }

  /** The position of a check in the order. */
  function Position(c: Check): (i: nat)
    ensures i < |CheckOrder| && CheckOrder[i] == c
  {
    match c
    case EmailShape => 0
    case NumbersOnly => 1
    case LettersOnly => 2
    case AlphaNumericOnly => 3
    case Length => 4
    case Match => 5
  }

  /** The chain clears `pass` at a check only when every declared check
      before it in the order holds. */
  lemma FailedCheckIsFirst(e: Element, values: PageValues, c: Check)
    requires !e.isCheckbox && !IsNullOrEmpty(e.value)
    requires FailedCheck(e, values) == Some(c)
    ensures forall i :: 0 <= i < Position(c) && Declares(e, CheckOrder[i]) ==> Holds(CheckOrder[i], e, e.value.value, values)
  {
    var bs := Outcomes(CheckOrder, e, e.value.value, values);
    var k := FirstFalse(bs).value;
    assert CheckOrder[k] == c;
    assert k == Position(c);
  }

  /** For a value that violates both numbers-only and check-length, the chain
      never clears `pass` at check-length; it clears it at numbers-only unless
      the earlier check-email already did. */
  lemma NumbersOnlyPrecedesLength(e: Element, values: PageValues)
    requires !e.isCheckbox && !IsNullOrEmpty(e.value)
    requires Declares(e, NumbersOnly) && !Holds(NumbersOnly, e, e.value.value, values)
    requires Declares(e, Length) && !Holds(Length, e, e.value.value, values)
    ensures FailedCheck(e, values).Some? && FailedCheck(e, values) != Some(Length)
    ensures Passes(EmailShape, e, e.value.value, values) ==> FailedCheck(e, values) == Some(NumbersOnly)
  {
    VerdictIsConjunction(e, values);
    var c := FailedCheck(e, values).value;
    FailedCheckIsFirst(e, values, c);
    assert CheckOrder[1] == NumbersOnly && CheckOrder[0] == EmailShape;
  }

  /** A check-match field whose target is missing or holds another value
      fails, whatever else it declares. */
  lemma MismatchFails(e: Element, values: PageValues)
    requires !e.isCheckbox && !IsNullOrEmpty(e.value) && Declares(e, Match)
    requires MatchTarget(e.matchId) !in values || values[MatchTarget(e.matchId)] != e.value.value
    ensures !Verdict(e, values)
  {
    VerdictIsConjunction(e, values);
  }

  /** Example: for "abcdef" with numbers-only and a maximum length of 3, the
      chain clears `pass` at numbers-only, the earlier check. */
  lemma NumbersOnlyPrecedesLengthExample()
    ensures
      var e := Element(Some("zip"), false, false, Some("abcdef"),
                       {Validate, "numbers-only", AllowSpaces, "check-length"},
                       None, Some(3), None, None);
      !IsNullOrEmpty(e.value) && FailedCheck(e, map[]) == Some(NumbersOnly)
  {
    var e := Element(Some("zip"), false, false, Some("abcdef"),
                     {Validate, "numbers-only", AllowSpaces, "check-length"},
                     None, Some(3), None, None);
    assert !IsSpace(e.value.value[0]);
    assert !Declares(e, EmailShape) && CheckOrder[1..][0] == NumbersOnly;
    assert !Holds(NumbersOnly, e, "abcdef", map[]);
    assert Outcomes(CheckOrder, e, "abcdef", map[])[..2] == [true, false];
  }

  /** Classes that are not rule markers (the feedback classes, styling) do not
      change the verdict. */
  lemma OtherClassesAreInert(e: Element, e': Element, values: PageValues)
    requires e' == e.(classes := e'.classes)
    requires e'.classes * RuleMarkers == e.classes * RuleMarkers
    ensures Verdict(e', values) <==> Verdict(e, values)
  {
    forall m | m in RuleMarkers ensures m in e'.classes <==> m in e.classes {
      assert m in e.classes * RuleMarkers <==> m in e'.classes * RuleMarkers;
    }
    forall c: Check ensures Declares(e', c) <==> Declares(e, c) {
      assert Marker(c) in RuleMarkers;
    }
    assert e'.isCheckbox == e.isCheckbox && e'.value == e.value && e'.checked == e.checked;
    assert e'.lengthMin == e.lengthMin && e'.lengthMax == e.lengthMax && e'.matchId == e.matchId;
    if !e.isCheckbox && !IsNullOrEmpty(e.value) {
      var v := e.value.value;
      forall c: Check ensures Holds(c, e', v, values) <==> Holds(c, e, v, values) {
      }
      ChainIsConjunction(CheckOrder, e, v, values, true);
      ChainIsConjunction(CheckOrder, e', v, values, true);
    }
  }
}

=== FILE: numeric_string.dfy ===
/** Whether JavaScript's `isNaN` rejects a string (dist/validation.js:171).

    `isNaN(v)` converts the string `v` with ToNumber.  By section 7.1.3.1 of
    ECMA-262 (6th edition), "ToNumber Applied to the String Type", the result
    is NaN exactly when the string cannot be derived from the grammar
    StringNumericLiteral; every string the grammar derives converts to a
    number (possibly an infinity), never to NaN.  So `!isNaN(v)` is the
    membership test of that grammar, and no floating-point arithmetic is
    needed.  The grammar is written here as ghost predicates over split
    positions, one per production; `IsNumericString` is a deterministic
    recogniser proved to accept the same strings.
 */
module NumericString {
  import opened CharClasses

  // ---------------------------------------------------------------------------
  // Lexical pieces shared by the grammar and the recogniser
  // ---------------------------------------------------------------------------

  /** DecimalDigits_opt: zero or more ASCII digits. */
  predicate AllDigits(s: string)
  {
    forall i :: 0 <= i < |s| ==> IsDigit(s[i])
  }

  /** DecimalDigits: one or more ASCII digits. */
  predicate IsDecimalDigits(s: string)
  {
    |s| > 0 && AllDigits(s)
  }

  predicate IsSign(c: char)
  {
    c == '+' || c == '-'
  }

  /** SignedInteger ::: DecimalDigits | + DecimalDigits | - DecimalDigits */
  predicate IsSignedInteger(s: string)
  {
    IsDecimalDigits(s) || (|s| > 0 && IsSign(s[0]) && IsDecimalDigits(s[1..]))
  }

  /** ExponentPart ::: ExponentIndicator SignedInteger, the indicator being `e` or `E`. */
  predicate IsExponentPart(s: string)
  {
    |s| > 0 && (s[0] == 'e' || s[0] == 'E') && IsSignedInteger(s[1..])
  }

  /** ExponentPart_opt */
  predicate OptExponent(s: string)
  {
    |s| == 0 || IsExponentPart(s)
  }

  predicate IsBinaryDigit(c: char)
  {
    c == '0' || c == '1'
  }

  predicate IsOctalDigit(c: char)
  {
    '0' <= c <= '7'
  }

  predicate IsHexDigit(c: char)
  {
    IsDigit(c) || ('a' <= c <= 'f') || ('A' <= c <= 'F')
  }

  /** BinaryIntegerLiteral ::: 0b BinaryDigits | 0B BinaryDigits */
  predicate IsBinaryIntegerLiteral(s: string)
  {
    |s| > 2 && s[0] == '0' && (s[1] == 'b' || s[1] == 'B')
    && forall i :: 2 <= i < |s| ==> IsBinaryDigit(s[i])
  }

  /** OctalIntegerLiteral ::: 0o OctalDigits | 0O OctalDigits */
  predicate IsOctalIntegerLiteral(s: string)
  {
    |s| > 2 && s[0] == '0' && (s[1] == 'o' || s[1] == 'O')
    && forall i :: 2 <= i < |s| ==> IsOctalDigit(s[i])
  }

  /** HexIntegerLiteral ::: 0x HexDigits | 0X HexDigits */
  predicate IsHexIntegerLiteral(s: string)
  {
    |s| > 2 && s[0] == '0' && (s[1] == 'x' || s[1] == 'X')
    && forall i :: 2 <= i < |s| ==> IsHexDigit(s[i])
  }

  // ---------------------------------------------------------------------------
  // The grammar
  // ---------------------------------------------------------------------------

  /** StrUnsignedDecimalLiteral :::
        Infinity
      | DecimalDigits . DecimalDigits_opt ExponentPart_opt   (dot at i, fraction ends at j)
      | . DecimalDigits ExponentPart_opt                     (fraction ends at j)
      | DecimalDigits ExponentPart_opt                       (digits end at i) */
  ghost predicate UnsignedDecimalGrammar(s: string)
  {
    || s == "Infinity"
    || (exists i, j :: DotForm(s, i, j))
    || (exists j :: FractionForm(s, j))
    || (exists i :: IntegerForm(s, i))
  }

  /** DecimalDigits . DecimalDigits_opt ExponentPart_opt, the dot at `i` and the exponent from `j`. */
  predicate DotForm(s: string, i: int, j: int)
  {
    0 < i < j <= |s| && IsDecimalDigits(s[..i]) && s[i] == '.' && AllDigits(s[i + 1..j]) && OptExponent(s[j..])
  }

  /** . DecimalDigits ExponentPart_opt, the exponent from `j`. */
  predicate FractionForm(s: string, j: int)
  {
    1 < j <= |s| && s[0] == '.' && IsDecimalDigits(s[1..j]) && OptExponent(s[j..])
  }

  /** DecimalDigits ExponentPart_opt, the exponent from `i`. */
  predicate IntegerForm(s: string, i: int)
  {
    0 < i <= |s| && IsDecimalDigits(s[..i]) && OptExponent(s[i..])
  }

  /** StrDecimalLiteral ::: StrUnsignedDecimalLiteral | + StrUnsignedDecimalLiteral | - StrUnsignedDecimalLiteral */
  ghost predicate StrDecimalGrammar(s: string)
  {
    UnsignedDecimalGrammar(s) || (|s| > 0 && IsSign(s[0]) && UnsignedDecimalGrammar(s[1..]))
  }

  /** StrNumericLiteral ::: StrDecimalLiteral | BinaryIntegerLiteral | OctalIntegerLiteral | HexIntegerLiteral */
  ghost predicate StrNumericGrammar(s: string)
  {
    StrDecimalGrammar(s) || IsBinaryIntegerLiteral(s) || IsOctalIntegerLiteral(s) || IsHexIntegerLiteral(s)
  }

  /** StringNumericLiteral ::: StrWhiteSpace_opt | StrWhiteSpace_opt StrNumericLiteral StrWhiteSpace_opt
      The literal, if any, is `s[i..j]`; StrWhiteSpaceChar is the `\s` set. */
  ghost predicate StringNumericGrammar(s: string)
  {
    exists i, j :: 0 <= i <= j <= |s| && AllSpace(s[..i]) && AllSpace(s[j..])
      && (i == j || StrNumericGrammar(s[i..j]))
  }

  // ---------------------------------------------------------------------------
  // The recogniser
  // ---------------------------------------------------------------------------

  /** The length of the longest all-digit prefix of `s`. */
  function LeadingDigits(s: string): (n: nat)
    ensures n <= |s| && AllDigits(s[..n]) && (n == |s| || !IsDigit(s[n]))
  {
    if |s| == 0 || !IsDigit(s[0]) then 0
    else
      var n := LeadingDigits(s[1..]);
      assert s[..n + 1] == [s[0]] + s[1..][..n];
      n + 1
  }

  /** StrUnsignedDecimalLiteral, read left to right: integer digits, then an
      optional dot and fraction digits (at least one digit in all), then an
      optional exponent. */
  predicate UnsignedDecimal(s: string)
  {
    if s == "Infinity" then true
    else
      var i := LeadingDigits(s);
      if i < |s| && s[i] == '.' then
        var j := LeadingDigits(s[i + 1..]);
        (i > 0 || j > 0) && OptExponent(s[i + 1 + j..])
      else
        i > 0 && OptExponent(s[i..])
  }

  predicate StrDecimal(s: string)
  {
    UnsignedDecimal(s) || (|s| > 0 && IsSign(s[0]) && UnsignedDecimal(s[1..]))
  }

  predicate StrNumeric(s: string)
  {
    StrDecimal(s) || IsBinaryIntegerLiteral(s) || IsOctalIntegerLiteral(s) || IsHexIntegerLiteral(s)
  }

  /** The number of `\s` characters at the start of `s`. */
  function LeadingSpaces(s: string): (n: nat)
    ensures n <= |s| && AllSpace(s[..n]) && (n == |s| || !IsSpace(s[n]))
  {
    if |s| == 0 || !IsSpace(s[0]) then 0
    else
      var n := LeadingSpaces(s[1..]);
      assert s[..n + 1] == [s[0]] + s[1..][..n];
      n + 1
  }

  /** The number of `\s` characters at the end of `s`. */
  function TrailingSpaces(s: string): (n: nat)
    ensures n <= |s| && AllSpace(s[|s| - n..]) && (n == |s| || !IsSpace(s[|s| - n - 1]))
  {
    if |s| == 0 || !IsSpace(s[|s| - 1]) then 0
    else
      var n := TrailingSpaces(s[..|s| - 1]);
      assert s[|s| - n - 1..] == s[..|s| - 1][|s| - 1 - n..] + [s[|s| - 1]];
      n + 1
  }

  /** `s` with its leading and trailing `\s` characters removed. */
  function Trim(s: string): string
  {
    var i := LeadingSpaces(s);
    var t := s[i..];
    t[..|t| - TrailingSpaces(t)]
  }

  /** `!isNaN(s)` for a string `s`: what is left after trimming `\s` is empty
      or a StrNumericLiteral. */
  predicate IsNumericString(s: string)
  {
    var t := Trim(s);
    |t| == 0 || StrNumeric(t)
  }

  // ---------------------------------------------------------------------------
  // The recogniser accepts exactly the grammar's strings
  // ---------------------------------------------------------------------------

  /** The all-digit prefix ends where the first non-digit is. */
  lemma {:induction false} LeadingDigitsAt(s: string, i: nat)
    requires i <= |s| && AllDigits(s[..i]) && (i == |s| || !IsDigit(s[i]))
    ensures LeadingDigits(s) == i
  {
  }

  lemma UnsignedFromDotForm(s: string, i: nat, j: nat)
    requires DotForm(s, i, j)
    ensures UnsignedDecimal(s)
  {
    LeadingDigitsAt(s, i);
    assert s[i + 1..][..j - i - 1] == s[i + 1..j];
    LeadingDigitsAt(s[i + 1..], j - i - 1);
    assert s[i + 1 + (j - i - 1)..] == s[j..];
  }

  lemma UnsignedFromFractionForm(s: string, j: nat)
    requires FractionForm(s, j)
    ensures UnsignedDecimal(s)
  {
    LeadingDigitsAt(s, 0);
    assert s[1..][..j - 1] == s[1..j];
    LeadingDigitsAt(s[1..], j - 1);
  }

  lemma UnsignedFromIntegerForm(s: string, i: nat)
    requires IntegerForm(s, i)
    ensures UnsignedDecimal(s)
  {
    LeadingDigitsAt(s, i);
  }

  lemma UnsignedDecimalFromGrammar(s: string)
    requires UnsignedDecimalGrammar(s)
    ensures UnsignedDecimal(s)
  {
    if s == "Infinity" {
    } else if exists i, j :: DotForm(s, i, j) {
      var i, j :| DotForm(s, i, j);
      UnsignedFromDotForm(s, i, j);
    } else if exists j :: FractionForm(s, j) {
      var j :| FractionForm(s, j);
      UnsignedFromFractionForm(s, j);
    } else {
      var i :| IntegerForm(s, i);
      UnsignedFromIntegerForm(s, i);
    }
  }

  lemma UnsignedDecimalToGrammar(s: string)
    requires UnsignedDecimal(s)
    ensures UnsignedDecimalGrammar(s)
  {
    if s != "Infinity" {
      var i := LeadingDigits(s);
      if i < |s| && s[i] == '.' {
        var j := LeadingDigits(s[i + 1..]);
        assert s[i + 1..][..j] == s[i + 1..i + 1 + j];
        if i > 0 {
          assert DotForm(s, i, i + 1 + j);
        } else {
          assert FractionForm(s, 1 + j);
        }
      } else {
        assert IntegerForm(s, i);
      }
    }
  }

  /** The recogniser agrees with StrNumericLiteral on every string. */
  lemma StrNumericIsGrammar(s: string)
    ensures StrNumeric(s) <==> StrNumericGrammar(s)
  {
    if UnsignedDecimal(s) { UnsignedDecimalToGrammar(s); }
    if UnsignedDecimalGrammar(s) { UnsignedDecimalFromGrammar(s); }
    if |s| > 0 {
      if UnsignedDecimal(s[1..]) { UnsignedDecimalToGrammar(s[1..]); }
      if UnsignedDecimalGrammar(s[1..]) { UnsignedDecimalFromGrammar(s[1..]); }
    }
  }

  /** A signed integer, hence an exponent part, ends in a digit. */
  lemma ExponentEndsInDigit(e: string)
    requires IsExponentPart(e)
    ensures IsDigit(e[|e| - 1])
  {
    var r := e[1..];
    if IsDecimalDigits(r) {
      assert e[|e| - 1] == r[|r| - 1];
    } else {
      assert e[|e| - 1] == r[1..][|r| - 2];
    }
  }

  /** A literal whose part before an optional exponent ends in a non-space
      character ends in one. */
  lemma EndsBeforeOptExponent(s: string, p: nat)
    requires 0 < p <= |s| && !IsSpace(s[p - 1]) && OptExponent(s[p..])
    ensures !IsSpace(s[|s| - 1])
  {
    var e := s[p..];
    if |e| > 0 {
      ExponentEndsInDigit(e);
      assert s[|s| - 1] == e[|e| - 1];
    }
  }

  lemma DotFormEnds(s: string, i: nat, j: nat)
    requires DotForm(s, i, j)
    ensures !IsSpace(s[0]) && !IsSpace(s[|s| - 1])
  {
    assert s[0] == s[..i][0];
    if j > i + 1 {
      assert s[j - 1] == s[i + 1..j][j - i - 2];
    }
    EndsBeforeOptExponent(s, j);
  }

  lemma FractionFormEnds(s: string, j: nat)
    requires FractionForm(s, j)
    ensures !IsSpace(s[0]) && !IsSpace(s[|s| - 1])
  {
    assert s[j - 1] == s[1..j][j - 2];
    EndsBeforeOptExponent(s, j);
  }

  lemma IntegerFormEnds(s: string, i: nat)
    requires IntegerForm(s, i)
    ensures !IsSpace(s[0]) && !IsSpace(s[|s| - 1])
  {
    assert s[0] == s[..i][0] && s[i - 1] == s[..i][i - 1];
    EndsBeforeOptExponent(s, i);
  }

  /** A StrUnsignedDecimalLiteral neither starts nor ends with white space. */
  lemma UnsignedDecimalEnds(s: string)
    requires UnsignedDecimal(s)
    ensures |s| > 0 && !IsSpace(s[0]) && !IsSpace(s[|s| - 1])
  {
    UnsignedDecimalToGrammar(s);
    if s == "Infinity" {
    } else if exists i, j :: DotForm(s, i, j) {
      var i, j :| DotForm(s, i, j);
      DotFormEnds(s, i, j);
    } else if exists j :: FractionForm(s, j) {
      var j :| FractionForm(s, j);
      FractionFormEnds(s, j);
    } else {
      var i :| IntegerForm(s, i);
      IntegerFormEnds(s, i);
    }
  }

  /** A StrNumericLiteral neither starts nor ends with white space. */
  lemma StrNumericEnds(s: string)
    requires StrNumeric(s)
    ensures |s| > 0 && !IsSpace(s[0]) && !IsSpace(s[|s| - 1])
  {
    if UnsignedDecimal(s) {
      UnsignedDecimalEnds(s);
    } else if |s| > 0 && IsSign(s[0]) && UnsignedDecimal(s[1..]) {
      UnsignedDecimalEnds(s[1..]);
      assert s[|s| - 1] == s[1..][|s| - 2];
    }
  }

  lemma NumericStringToGrammar(s: string)
    requires IsNumericString(s)
    ensures StringNumericGrammar(s)
  {
    var i := LeadingSpaces(s);
    var t := s[i..];
    var k := TrailingSpaces(t);
    var j := i + |t| - k;
    assert s[j..] == t[|t| - k..];
    assert s[i..j] == Trim(s);
    if |Trim(s)| > 0 {
      StrNumericIsGrammar(Trim(s));
    }
    assert 0 <= i <= j <= |s| && AllSpace(s[..i]) && AllSpace(s[j..])
      && (i == j || StrNumericGrammar(s[i..j]));
  }

  /** The white-space prefix ends where the first non-space is. */
  lemma {:induction false} LeadingSpacesAt(s: string, i: nat)
    requires i <= |s| && AllSpace(s[..i]) && (i == |s| || !IsSpace(s[i]))
    ensures LeadingSpaces(s) == i
  {
  }

  /** The white-space suffix starts after the last non-space. */
  lemma {:induction false} TrailingSpacesAt(s: string, k: nat)
    requires k <= |s| && AllSpace(s[|s| - k..]) && (k == |s| || !IsSpace(s[|s| - k - 1]))
    ensures TrailingSpaces(s) == k
  {
  }

  /** Trimming a string made only of white space leaves nothing. */
  lemma TrimAllSpace(s: string)
    requires AllSpace(s)
    ensures Trim(s) == []
  {
    LeadingSpacesAt(s, |s|);
  }

  /** Trimming `s` leaves exactly a literal surrounded by white space. */
  lemma TrimAroundLiteral(s: string, i: nat, j: nat)
    requires i < j <= |s| && AllSpace(s[..i]) && AllSpace(s[j..])
    requires !IsSpace(s[i]) && !IsSpace(s[j - 1])
    ensures Trim(s) == s[i..j]
  {
    LeadingSpacesAt(s, i);
    var t := s[i..];
    assert t[|t| - (|s| - j)..] == s[j..];
    TrailingSpacesAt(t, |s| - j);
  }

  /** A string of white space only, the empty string included, is numeric:
      `isNaN` reads it as 0. */
  lemma BlankIsNumeric(s: string)
    requires AllSpace(s)
    ensures IsNumericString(s)
  {
    TrimAllSpace(s);
  }

  /** White space on both sides of an empty middle: `s` is all white space. */
  lemma BlankFromGrammar(s: string, i: nat)
    requires i <= |s| && AllSpace(s[..i]) && AllSpace(s[i..])
    ensures IsNumericString(s)
  {
    assert AllSpace(s) by {
      forall n | 0 <= n < |s| ensures IsSpace(s[n]) {
        if n < i { assert s[n] == s[..i][n]; } else { assert s[n] == s[i..][n - i]; }
      }
    }
    TrimAllSpace(s);
  }

  /** A StrNumericLiteral between white space survives trimming whole. */
  lemma LiteralFromGrammar(s: string, i: nat, j: nat)
    requires i < j <= |s| && AllSpace(s[..i]) && AllSpace(s[j..]) && StrNumericGrammar(s[i..j])
    ensures IsNumericString(s)
  {
    StrNumericFromGrammar(s[i..j]);
    LiteralIsNumeric(s, i, j);
  }

  lemma LiteralIsNumeric(s: string, i: nat, j: nat)
    requires i < j <= |s| && AllSpace(s[..i]) && AllSpace(s[j..]) && StrNumeric(s[i..j])
    ensures IsNumericString(s)
  {
    var m := s[i..j];
    StrNumericEnds(m);
    assert s[i] == m[0] && s[j - 1] == m[|m| - 1];
    TrimAroundLiteral(s, i, j);
    assert Trim(s) == m;
  }

  lemma StrNumericFromGrammar(m: string)
    requires StrNumericGrammar(m)
    ensures StrNumeric(m)
  {
    StrNumericIsGrammar(m);
  }

  lemma NumericStringFromGrammar(s: string)
    requires StringNumericGrammar(s)
    ensures IsNumericString(s)
  {
    var i, j :| 0 <= i <= j <= |s| && AllSpace(s[..i]) && AllSpace(s[j..])
      && (i == j || StrNumericGrammar(s[i..j]));
    if i == j {
      BlankFromGrammar(s, i);
    } else {
      LiteralFromGrammar(s, i, j);
    }
  }

  /** `!isNaN(s)` holds exactly for the strings StringNumericLiteral derives. */
  lemma IsNumericStringIsGrammar(s: string)
    ensures IsNumericString(s) <==> StringNumericGrammar(s)
  {
    if IsNumericString(s) { NumericStringToGrammar(s); }
    if StringNumericGrammar(s) { NumericStringFromGrammar(s); }
  }
}

=== FILE: rules.dfy ===
/** The rule predicates of the validation engine (dist/validation.js, lines
    150 to 201): each decides one declared constraint for one field value.

    Values are strings; an absent value (`undefined` or `null` from jQuery's
    `.val()`) is `None`.  Parameters read with jQuery's `.data(...)` are
    optional: an absent one is `None`, and JavaScript truthiness decides
    whether a present one is used at all.
 */
module Rules {
  import opened Wrappers
  import opened CharClasses
  import opened NumericString

  // ---------------------------------------------------------------------------
  // JavaScript truthiness of the values the rules see
  // ---------------------------------------------------------------------------

  /** A number from `.data(...)` is truthy when present and not zero. */
  predicate TruthyNumber(n: Option<int>)
  {
    n.Some? && n.value != 0
  }

  /** A string from `.data(...)` is truthy when present and not empty. */
  predicate TruthyString(m: Option<string>)
  {
    m.Some? && m.value != ""
  }

  /** The result of a rule that may return `undefined` (`None`) instead of a boolean. */
  predicate Truthy(r: Option<bool>)
  {
    r == Some(true)
  }

  // ---------------------------------------------------------------------------
  // checkIfNullOrEmpty (line 150)
  // ---------------------------------------------------------------------------

  /** Some character of `s` is not white space. */
  predicate HasNonSpace(s: string)
  {
    exists i :: 0 <= i < |s| && !IsSpace(s[i])
  }

  /** A value is null or empty when it is absent, empty, or made of white space only. */
  predicate IsNullOrEmpty(value: Option<string>): (r: bool)
    ensures r <==> value.None? || !HasNonSpace(value.value)
  {
    value.None? || value.value == "" || (|value.value| > 0 && !HasNonSpace(value.value))
  }

  /** A value is null or empty exactly when nothing is left of it once the
      white space at both ends is trimmed. */
  lemma NullOrEmptyIsBlank(value: Option<string>)
    ensures IsNullOrEmpty(value) <==> value.None? || Trim(value.value) == []
  {
    if value.Some? {
      var s := value.value;
      if !HasNonSpace(s) {
        TrimAllSpace(s);
      } else {
        var k :| 0 <= k < |s| && !IsSpace(s[k]);
      }
    }
  }

  // ---------------------------------------------------------------------------
  // checkLength (line 159)
  // ---------------------------------------------------------------------------

  /** `value.length`: the number of UTF-16 code units of `s`; a character
      outside the Basic Multilingual Plane takes two. */
  function Utf16Length(s: string): (n: nat)
    ensures |s| <= n <= 2 * |s|
    ensures n == |s| <==> forall i :: 0 <= i < |s| ==> s[i] as int <= 0xFFFF
  {
    if s == [] then 0
    else
      var n := Utf16Length(s[1..]);
      assert forall i :: 1 <= i < |s| ==> s[1..][i - 1] == s[i];
      (if s[0] as int <= 0xFFFF then 1 else 2) + n
  }

  /** The positions of `s` that hold a character outside the Basic
      Multilingual Plane. */
  function Astral(s: string): set<nat>
  {
    set i: nat | i < |s| && s[i] as int > 0xFFFF
  }

  /** `value.length` is exactly the number of characters plus one for each
      character outside the Basic Multilingual Plane. */
  lemma {:induction false} Utf16LengthCountsAstral(s: string)
    ensures Utf16Length(s) == |s| + |Astral(s)|
  {
    if s != [] {
      var t := s[1..];
      Utf16LengthCountsAstral(t);
      var shifted := ShiftUp(Astral(t));
      AstralTail(s);
      ShiftCard(Astral(t));
      if s[0] as int > 0xFFFF {
        assert Astral(s) == shifted + {0};
      } else {
        assert Astral(s) == shifted;
      }
    }
  }

  /** Dropping the first character moves every other astral position down by one. */
  lemma AstralTail(s: string)
    requires s != []
    ensures Astral(s) - {0} == ShiftUp(Astral(s[1..]))
  {
    var t := s[1..];
    forall i | i in Astral(s) - {0} ensures i in ShiftUp(Astral(t)) {
      assert t[i - 1] == s[i];
      assert (i - 1) in Astral(t);
    }
    forall i | i in ShiftUp(Astral(t)) ensures i in Astral(s) - {0} {
      assert t[i - 1] == s[i];
    }
  }

  /** Every member of `a` moved up by one. */
  function ShiftUp(a: set<nat>): set<nat>
  {
    set x | x in a :: x + 1
  }

  /** Moving a set of positions up by one keeps its size and never produces 0. */
  lemma {:induction false} ShiftCard(a: set<nat>)
    ensures |ShiftUp(a)| == |a|
    ensures 0 !in ShiftUp(a)
  {
    if a != {} {
      var x :| x in a;
      var rest := a - {x};
      ShiftCard(rest);
      assert ShiftUp(a) == ShiftUp(rest) + {x + 1} by {
        forall y | y in ShiftUp(a) ensures y in ShiftUp(rest) + {x + 1} {
          var z :| z in a && y == z + 1;
          if z != x { assert z in rest; }
        }
      }
      assert x + 1 !in ShiftUp(rest);
    }
  }

  /** `value.length`, checked against `min` when `min` is truthy and then against
      `max` when `max` is truthy and the first comparison held. */
  function CheckLength(value: string, min: Option<int>, max: Option<int>): (r: bool)
    ensures r <==> ((TruthyNumber(min) ==> Utf16Length(value) >= min.value)
                    && (TruthyNumber(max) ==> Utf16Length(value) <= max.value))
  {
    var vlen := Utf16Length(value);
    var result := if TruthyNumber(min) then vlen >= min.value else true;
    if result && TruthyNumber(max) then vlen <= max.value else result
  }

  /** Examples: a five-character value against
      3..10, a minimum of 6, a maximum of 4, and no bounds at all. */
  lemma LengthExamples()
    ensures CheckLength("hello", Some(3), Some(10))
    ensures !CheckLength("hello", Some(6), None)
    ensures !CheckLength("hello", None, Some(4))
    ensures CheckLength("hello", None, None)
  {
    assert Utf16Length("hello") == 5;
  }

  /** A bound of zero is falsy, so it constrains nothing, like an absent one. */
  lemma ZeroBoundIsAbsent(value: string, min: Option<int>, max: Option<int>)
    ensures CheckLength(value, Some(0), max) == CheckLength(value, None, max)
    ensures CheckLength(value, min, Some(0)) == CheckLength(value, min, None)
  {
  }

  /** A character outside the Basic Multilingual Plane counts twice towards the
      length: one such character already exceeds a maximum of 1. */
  lemma LengthCountsCodeUnits()
    ensures !CheckLength("\U{1F600}", None, Some(1))
    ensures CheckLength("\U{1F600}", Some(2), Some(2))
  {
    assert Utf16Length("\U{1F600}") == 2;
  }

  // ---------------------------------------------------------------------------
  // checkMatch (line 166)
  // ---------------------------------------------------------------------------

  /** The page's element ids mapped to their current `.val()`; an id missing
      from the map is an element that does not exist. */
  type PageValues = map<string, string>

  /** The id `'#' + matchId` selects: an absent `matchId` turns into the text "undefined". */
  function MatchTarget(matchId: Option<string>): string
  {
    matchId.GetOr("undefined")
  }

  /** `value === $('#' + matchId).val()`: strict equality with the current value
      of the target element; a missing element yields `undefined`, which equals
      no string. */
  function CheckMatch(value: string, matchId: Option<string>, values: PageValues): (r: bool)
    ensures r <==> MatchTarget(matchId) in values && values[MatchTarget(matchId)] == value
  {
    var target := MatchTarget(matchId);
    target in values && value == values[target]
  }

  /** Matching is exact: equal passwords match, a difference in case does not,
      and a target that does not exist never matches. */
  lemma MatchExamples()
    ensures CheckMatch("secret", Some("password"), map["password" := "secret"])
    ensures !CheckMatch("secret", Some("password"), map["password" := "Secret"])
    ensures !CheckMatch("secret", Some("password"), map[])
  {
  }

  /** The rule reads the page at one place only: two pages that agree on the
      target element give the same answer, whatever their other elements hold. */
  lemma MatchReadsOnlyTarget(value: string, matchId: Option<string>, values: PageValues, values': PageValues)
    requires MatchTarget(matchId) in values <==> MatchTarget(matchId) in values'
    requires MatchTarget(matchId) in values ==> values[MatchTarget(matchId)] == values'[MatchTarget(matchId)]
    ensures CheckMatch(value, matchId, values) == CheckMatch(value, matchId, values')
  {
  }

  /** With no match id the rule compares against the element whose id is "undefined". */
  lemma MatchWithoutIdUsesUndefined(value: string, values: PageValues)
    ensures CheckMatch(value, None, values) <==> "undefined" in values && values["undefined"] == value
  {
  }

  // ---------------------------------------------------------------------------
  // checkIfNumbersOnly (line 169)
  // ---------------------------------------------------------------------------

  /** Four regimes: with neither flag, any string `isNaN` accepts except the
      empty one; otherwise one or more characters of a class of digits that the
      flags widen with white space and with `- / , . ( )`. */
  function CheckNumbersOnly(value: string, allowSpaces: bool, allowSpecial: bool): (r: bool)
    ensures !allowSpaces && !allowSpecial ==> (r <==> value != "" && IsNumericString(value))
    ensures allowSpaces && allowSpecial ==> (r <==> |value| > 0 && forall i :: 0 <= i < |value| ==> IsDigit(value[i]) || IsSpace(value[i]) || IsNumberPunctuation(value[i]))
    ensures allowSpaces && !allowSpecial ==> (r <==> |value| > 0 && forall i :: 0 <= i < |value| ==> IsDigit(value[i]) || IsSpace(value[i]))
    ensures !allowSpaces && allowSpecial ==> (r <==> |value| > 0 && forall i :: 0 <= i < |value| ==> IsDigit(value[i]) || IsNumberPunctuation(value[i]))
  {
    if !allowSpaces && !allowSpecial then value != "" && IsNumericString(value)
    else if allowSpaces && !allowSpecial then MatchesPlus(DigitsSpaces, value)
    else if !allowSpaces && allowSpecial then MatchesPlus(DigitsSpecial, value)
    else MatchesPlus(DigitsSpacesSpecial, value)
  }

  /** Without flags the rule accepts exactly the non-empty strings that
      StringNumericLiteral derives, that is, those `isNaN` does not reject. */
  lemma NumbersOnlyWithoutFlagsIsNumericLiteral(value: string)
    ensures CheckNumbersOnly(value, false, false) <==> value != "" && StringNumericGrammar(value)
  {
    IsNumericStringIsGrammar(value);
  }

  /** With both flags the class is the union of the two single-flag classes, so
      the regime accepts everything either single-flag regime accepts, and
      more: a mix of spaces and punctuation. */
  lemma NumbersBothFlagsIsUnion(value: string)
    ensures CheckNumbersOnly(value, true, true)
        <==> |value| > 0 && forall i :: 0 <= i < |value| ==> InClass(DigitsSpaces, value[i]) || InClass(DigitsSpecial, value[i])
    ensures CheckNumbersOnly(value, true, false) ==> CheckNumbersOnly(value, true, true)
    ensures CheckNumbersOnly(value, false, true) ==> CheckNumbersOnly(value, true, true)
  {
  }

  /** A string of ASCII digits surrounded by nothing else is numeric. */
  lemma DigitsAreNumeric(value: string)
    requires IsDecimalDigits(value)
    ensures IsNumericString(value)
  {
    LeadingSpacesAt(value, 0);
    assert value[0..] == value;
    TrailingSpacesAt(value, 0);
    assert Trim(value) == value;
    LeadingDigitsAt(value, |value|);
  }

  /** A non-empty string of ASCII digits passes every regime. */
  lemma DigitsPassEveryRegime(value: string, allowSpaces: bool, allowSpecial: bool)
    requires IsDecimalDigits(value)
    ensures CheckNumbersOnly(value, allowSpaces, allowSpecial)
  {
    DigitsAreNumeric(value);
  }

  /** Without flags the rule is JavaScript's notion of a number, white space
      around it included. */
  lemma NumbersOnlyAcceptsPaddedNumber()
    ensures CheckNumbersOnly(" 42 ", false, false)
  {
    var s := " 42 ";
    LeadingSpacesAt(s, 1);
    assert s[1..] == "42 ";
    TrailingSpacesAt("42 ", 1);
    assert Trim(s) == "42";
    DigitsAreNumeric("42");
  }

  /** A signed decimal with an exponent is a number, but it is not made of
      digits and white space. */
  lemma NumbersOnlyExponent()
    ensures CheckNumbersOnly("-1.5e3", false, false)
    ensures !CheckNumbersOnly("-1.5e3", true, false)
  {
    NumbersOnlyAcceptsExponent();
    assert !IsDigit("-1.5e3"[0]) && !IsSpace("-1.5e3"[0]);
  }

  lemma NumbersOnlyAcceptsExponent()
    ensures CheckNumbersOnly("-1.5e3", false, false)
  {
    var s := "-1.5e3";
    LeadingSpacesAt(s, 0);
    TrailingSpacesAt(s, 0);
    assert s[0..] == s;
    assert Trim(s) == s;
    var u := s[1..];
    LeadingDigitsAt(u, 1);
    assert u[2..] == "5e3";
    LeadingDigitsAt("5e3", 1);
    assert u[3..] == "e3";
    assert "e3"[1..] == "3";
    assert UnsignedDecimal(u);
  }

  /** A hexadecimal literal is a number. */
  lemma NumbersOnlyHex()
    ensures CheckNumbersOnly("0x1F", false, false)
  {
    var s := "0x1F";
    LeadingSpacesAt(s, 0);
    TrailingSpacesAt(s, 0);
    assert s[0..] == s;
    assert Trim(s) == s;
    assert IsHexIntegerLiteral(s);
  }

  /** A telephone-style string passes with special characters allowed, and is
      not a number without them. */
  lemma NumbersOnlySpecialCharacters()
    ensures CheckNumbersOnly("12-34", false, true)
    ensures !CheckNumbersOnly("12-34", false, false)
  {
    NumbersOnlyAcceptsDash();
    NumbersOnlyRejectsDash();
  }

  lemma NumbersOnlyAcceptsDash()
    ensures CheckNumbersOnly("12-34", false, true)
  {
    var s := "12-34";
    assert s[0] == '1' && s[1] == '2' && s[2] == '-' && s[3] == '3' && s[4] == '4';
  }

  lemma NumbersOnlyRejectsDash()
    ensures !CheckNumbersOnly("12-34", false, false)
  {
    var s := "12-34";
    LeadingSpacesAt(s, 0);
    TrailingSpacesAt(s, 0);
    assert s[0..] == s;
    assert Trim(s) == s;
    LeadingDigitsAt(s, 2);
    assert s[2..] == "-34";
    assert !UnsignedDecimal(s);
    assert !IsSign(s[0]) && s[1] == '2';
    assert !StrNumeric(s);
  }

  /** Digits separated by a space pass with spaces allowed, and are not a number. */
  lemma NumbersOnlySpaces()
    ensures CheckNumbersOnly("1 2", true, false)
    ensures !CheckNumbersOnly("1 2", false, false)
  {
    var s := "1 2";
    LeadingSpacesAt(s, 0);
    TrailingSpacesAt(s, 0);
    assert s[0..] == s;
    assert Trim(s) == s;
    LeadingDigitsAt(s, 1);
    assert s[1..] == " 2";
    assert !IsExponentPart(s[1..]);
  }

  // ---------------------------------------------------------------------------
  // checkIfLettersOnly (line 183)
  // ---------------------------------------------------------------------------

  /** Without flags the source evaluates an ASCII-letters pattern but returns nothing,
      so the result is `undefined` (`None`).  With spaces only: one or more
      ASCII letters or white space.  With special characters: exactly one
      character (the patterns have no `+`) that is a range letter, a digit,
      `'`, `-` or `_`, or, with both flags, also white space. */
  function CheckLettersOnly(value: string, allowSpaces: bool, allowSpecial: bool): (r: Option<bool>)
    ensures r.None? <==> !allowSpaces && !allowSpecial
    ensures allowSpaces && !allowSpecial ==>
              (Truthy(r) <==> |value| > 0 && forall i :: 0 <= i < |value| ==> IsAsciiLetter(value[i]) || IsSpace(value[i]))
    ensures allowSpecial ==>
              (Truthy(r) <==> |value| == 1 && (IsRangeAlnum(value[0]) || value[0] in "'-_" || (allowSpaces && IsSpace(value[0]))))
  {
    if !allowSpaces && !allowSpecial then None
    else if allowSpaces && !allowSpecial then Some(MatchesPlus(AsciiLettersSpaces, value))
    else if !allowSpaces && allowSpecial then Some(MatchesOne(NameChars, value))
    else Some(MatchesOne(NameCharsSpaces, value))
  }

  /** The regime without flags fails every value, letters included. */
  lemma LettersOnlyWithoutFlagsFails(value: string)
    ensures !Truthy(CheckLettersOnly(value, false, false))
  {
  }

  /** The special-character regimes accept a single character: one the
      alphanumeric rule accepts with the same spaces flag, or one of `' - _`. */
  lemma LettersOnlySpecialIsOneAlphaNumeric(value: string, allowSpaces: bool)
    ensures Truthy(CheckLettersOnly(value, allowSpaces, true))
        <==> |value| == 1 && (CheckAlphaNumeric(value, allowSpaces) || value[0] in "'-_")
  {
  }

  /** The regimes nest: with special characters, allowing spaces only adds
      white space; and what the spaces-only regime accepts, the alphanumeric
      rule with spaces accepts too, since ASCII letters are range letters. */
  lemma LettersOnlyRegimesNest(value: string)
    ensures Truthy(CheckLettersOnly(value, false, true)) ==> Truthy(CheckLettersOnly(value, true, true))
    ensures Truthy(CheckLettersOnly(value, true, false)) ==> CheckAlphaNumeric(value, true)
  {
  }

  /** Examples: the spaces regime is ASCII only; the special regimes take one
      character, a letter of the Unicode blocks included, and nothing longer. */
  lemma LettersOnlyExamples()
    ensures !Truthy(CheckLettersOnly("abc", false, false))
    ensures Truthy(CheckLettersOnly("Mary Ann", true, false))
    ensures !Truthy(CheckLettersOnly("Jos\U{00E9}", true, false))
    ensures Truthy(CheckLettersOnly("\U{00E9}", false, true))
    ensures !Truthy(CheckLettersOnly("O'Brien", false, true))
    ensures !Truthy(CheckLettersOnly("Mary Ann", true, true))
  {
    assert InBlocks('\U{00E9}') by {
      assert UnicodeBlocks[0] == Block(0x0080, 0x00FF);
    }
    assert !InClass(AsciiLettersSpaces, "Jos\U{00E9}"[3]);
  }

  // ---------------------------------------------------------------------------
  // checkIfAlphaNumeric (line 197)
  // ---------------------------------------------------------------------------

  /** One or more range letters or digits, and white space too when spaces are allowed. */
  function CheckAlphaNumeric(value: string, allowSpaces: bool): (r: bool)
    ensures r <==> |value| > 0 && forall i :: 0 <= i < |value| ==> IsRangeAlnum(value[i]) || (allowSpaces && IsSpace(value[i]))
  {
    MatchesPlus(if allowSpaces then AlnumSpaces else Alnum, value)
  }

  /** Allowing spaces only adds white space: the two regimes agree on every
      value without white space. */
  lemma AlphaNumericSpacesOnlyAddSpace(value: string)
    ensures CheckAlphaNumeric(value, false) ==> CheckAlphaNumeric(value, true)
    ensures (forall i :: 0 <= i < |value| ==> !IsSpace(value[i]))
        ==> (CheckAlphaNumeric(value, true) <==> CheckAlphaNumeric(value, false))
  {
  }

  lemma AlphaNumericExamples()
    ensures CheckAlphaNumeric("abc123", false)
    ensures !CheckAlphaNumeric("abc 123", false)
    ensures CheckAlphaNumeric("abc 123", true)
    ensures !CheckAlphaNumeric("a-b", true)
  {
    if InBlocks(' ') { BlocksBounds(' '); }
    if InBlocks('-') { BlocksBounds('-'); }
    assert !InClass(Alnum, "abc 123"[3]);
    assert !InClass(AlnumSpaces, "a-b"[1]);
  }
}

=== FILE: wrappers.dfy ===
/** Optional values: an absent jQuery `.val()` or `.data(...)` result is `None`. */
module Wrappers {

  datatype Option<+T> = None | Some(value: T) {

    function GetOr(default: T): T
    {
      match this
      case Some(v) => v
      case None => default
    }
  }
}
